=== FILE: README.md ===
# Montime agent, modelled in Dafny

The Montime agent is a Python process. It is started with a server token. Once a minute it reads CPU,
memory and disk usage, pings `8.8.8.8`, and POSTs the readings as JSON to
`{BASE_URL}/api/metrics/ingest` with a bearer token. Each send makes at most three attempts.
The repository ships four copies of the agent:

- `agent.py`, the unversioned copy: readings and retries only.
- `agents/v.1.1.0/agent.py`: adds OS detection, with a "rich" `/etc/os-release`
  reader (`NAME=`/`ID=` fallbacks, a `\d+\.\d+` search in `VERSION=`) and a Windows
  registry lookup. Its default server differs.
- `agents/v1.1.0/agent.py`: a "simple" os-release reader. It also adds `agent_version` and a
  `config.json` fallback for the token, and sleeps after every failed attempt.
- `agents/v1.2.0/agent.py`: adds cloud detection (provider, instance type, detection
  source) from metadata endpoints, logs it, and sends it with every sample.

The modules follow the program's parts:

| module | file | what it holds |
|---|---|---|
| `Optional` | wrappers.dfy | `Option`, Python's None-or-value |
| `PyStr` | pystr.dfy | the `str` operations the agents use: `strip`, `split`, `split(c, 1)[1]`, `split('/')[-1]`, `in`, `str(int)`, truthiness |
| `VersionPattern` | versionpattern.dfy | `re.search(r'\d+\.\d+', s)` with Python's Unicode `\d` |
| `OsRelease` | osrelease.dfy | both os-release readers, `detect_os` and its cache |
| `Delivery` | delivery.dfy | the retry loop of `send_metrics` in its two sleep variants, and a Ctrl-C inside it |
| `Revisions` | revisions.dfy | the settings in which the four copies differ |
| `Cloud` | cloud.dfy | `detect_cloud_provider`, the instance-type lookups, `initialize_environment`, `log_detection` |
| `Payload` | payload.dfy | the URL, headers and JSON payload of a send |
| `Agent` | agent.dfy | token resolution, one iteration of `main`'s loop, the loop, and the whole run |

The environment is passed in as values:

- the platform, the os-release text and the Windows lookups;
- the server's answer to each POST and the metadata endpoints' answers;
- the ping's exit status, psutil's readings, and when a Ctrl-C arrives.

Each loop iteration is a `Tick`. A run over a finite sequence of ticks is the prefix of the agent's life that they cover.

## Model

| member | source | states |
|---|---|---|
| PyStr.StripCharacterization | agents/v.1.1.0/agent.py:69 | `r == Strip(s, cs)` exactly when `r` is the window of `s` left by removing the maximal leading and trailing runs of `cs` (both directions of the iff) |
| PyStr.StripIdempotent | agents/v.1.1.0/agent.py:69 | stripping a stripped string with the same characters changes nothing |
| PyStr.StripIgnoresTrailing | agents/v1.1.0/agent.py:100-104 | appending a character that `strip` removes anyway does not change the stripped result, so a line read with its `\n` has the same value |
| PyStr.AfterFirst | agents/v.1.1.0/agent.py:69 | `s.split(c, 1)[1]` is what follows the first `c`: `s` is a `c`-free prefix, then `c`, then the result |
| PyStr.SplitPiecesFree | agents/v.1.1.0/agent.py:67 | no piece of `s.split(c)` contains `c` |
| PyStr.JoinSplit | agents/v.1.1.0/agent.py:67 | joining the pieces of a split with `c` gives back `s` |
| PyStr.SplitJoin | agents/v.1.1.0/agent.py:67 | splitting a join of `c`-free pieces gives back the pieces |
| PyStr.LastSegmentSpec | agents/v1.2.0/agent.py:178 | `split('/')[-1]` is a `/`-free suffix that is all of the text or follows a `/` |
| PyStr.LastSegmentUnique | agents/v1.2.0/agent.py:178 | at most one string is such a last segment |
| PyStr.LastSegmentIsLastPiece | agents/v1.2.0/agent.py:178 | that segment is exactly the last element of `Split(s, '/')` |
| PyStr.ContainsOccurrence | agents/v1.2.0/agent.py:154 | `sub in s` holds exactly when `sub` occurs at some index of `s` |
| PyStr.NatToString | agents/v1.2.0/agent.py:196 | `str(n)` is a non-empty run of decimal digits with no leading zero |
| PyStr.NatToStringRoundTrip | agents/v1.2.0/agent.py:196 | reading the digits of `str(n)` back gives `n` |
| PyStr.NatToStringInjective | agents/v1.2.0/agent.py:196 | different numbers print differently |
| VersionPattern.MatchAtSpec | agents/v.1.1.0/agent.py:80 | the greedy match at `i` exists exactly when the pattern matches at `i`; it is a real match, and its second digit run cannot be extended |
| VersionPattern.SearchFromSpec | agents/v.1.1.0/agent.py:80 | the search from `from` reports the first position where a match begins, with the greedy end; it reports none exactly when nothing matches from `from` on |
| VersionPattern.SearchVersionSpec | agents/v.1.1.0/agent.py:80-82 | `re.search(...)` finds nothing exactly when the pattern matches nowhere; otherwise it returns the leftmost match, not extendable on the right, at least three characters long |
| VersionPattern.SearchVersionShape | agents/v.1.1.0/agent.py:80-82 | a found version is Unicode decimal digits, one `.`, and Unicode decimal digits |
| OsRelease.RawValue | agents/v.1.1.0/agent.py:69 | `line.split('=', 1)[1]` of a `KEY=` line is everything after the key and its `=` |
| OsRelease.ClassifyRich | agents/v.1.1.0/agent.py:76-82 | a `VERSION=` line's found version, when there is one, has at least three characters |
| OsRelease.RichStepClassified | agents/v.1.1.0/agent.py:68-82 | one pass of the rich `if/elif` chain equals recognising the line's key first, then applying that key's guard |
| OsRelease.SimpleStepClassified | agents/v1.1.0/agent.py:101-104 | the same for the simple chain |
| OsRelease.ParseRich | agents/v.1.1.0/agent.py:67-82 | the rich loop over the lines is the fold of the guards over the recognised entries |
| OsRelease.ParseSimple | agents/v1.1.0/agent.py:100-104 | the simple loop is the fold of its overwrites over the entries |
| OsRelease.RichNameKept | agents/v.1.1.0/agent.py:68-73 | once the name is non-empty, only a `PRETTY_NAME=` entry changes it |
| OsRelease.RichPrettyNameWins | agents/v.1.1.0/agent.py:68-69 | with a non-empty `PRETTY_NAME=` value and no later `PRETTY_NAME=` entry, that value is the name |
| OsRelease.RichNameFallback | agents/v.1.1.0/agent.py:70-73 | without `PRETTY_NAME=`, the name is the first non-empty `NAME=`/`ID=` value |
| OsRelease.RichNameAbsent | agents/v.1.1.0/agent.py:68-73 | without any of those, no name is reported |
| OsRelease.RichVersionKept | agents/v.1.1.0/agent.py:74-82 | once the version is non-empty, only a `VERSION_ID=` entry changes it |
| OsRelease.RichVersionIdWins | agents/v.1.1.0/agent.py:74-75 | with a non-empty `VERSION_ID=` value and no later `VERSION_ID=` entry, that value is the version |
| OsRelease.RichVersionFallback | agents/v.1.1.0/agent.py:76-82 | without `VERSION_ID=`, the version is the match from the first `VERSION=` line that has one |
| OsRelease.RichVersionAbsent | agents/v.1.1.0/agent.py:74-82 | without `VERSION_ID=` lines or matching `VERSION=` lines, no version is reported |
| OsRelease.RichPrettyNameEntry | agents/v.1.1.0/agent.py:68-69 | a line is read as a `PRETTY_NAME=` entry exactly when it starts with `PRETTY_NAME=` |
| OsRelease.RichPrettyNameLineWins | agents/v.1.1.0/agent.py:67-69 | on the file's lines: the last `PRETTY_NAME=` line with a non-empty cleaned value names the system |
| OsRelease.LastValue | agents/v1.1.0/agent.py:100-104 | the value of the last entry of a kind among the first `n`: None exactly when there is none, else the value of an entry of that kind with none after it |
| OsRelease.SimpleLastWins | agents/v1.1.0/agent.py:100-104 | the simple reader's name and version are the values of the last `PRETTY_NAME=` and `VERSION_ID=` entries |
| OsRelease.SimpleKeysMissing | agents/v1.2.0/agent.py:113-117 | with no `PRETTY_NAME=` line the name stays None; with no `VERSION_ID=` line the version stays None |
| OsRelease.SimpleEntryKeys | agents/v1.2.0/agent.py:114-117 | the simple reader reads a line as an entry only when it starts with that entry's key |
| OsRelease.SimpleLineNewline | agents/v1.1.0/agent.py:100-104 | a line with its `\n` is read as the same entry as the line without it |
| OsRelease.FileLinesParseAlike | agents/v1.1.0/agent.py:99-104 | iterating the file (lines keep `\n`, no empty last line) gives the same fields as splitting its text on `\n` |
| OsRelease.DetectOs | agents/v.1.1.0/agent.py:52-112 | `linux*` gives type "linux", `win*` type "windows", and anything else three Nones; an unreadable os-release gives ("linux", None, None) |
| OsRelease.DetectOsCached | agents/v1.1.0/agent.py:86-118 | a cached tuple is returned unchanged; otherwise the detected tuple is returned and cached |
| OsRelease.DetectOnce | agents/v.1.1.0/agent.py:128-138 | over a run of sends, detection runs once and every send gets the first tuple, whatever later probes say |
| Delivery.DeliverMeetsSpec | agent.py:78-101 | at most `MAX_RETRIES` (3) attempts; delivered exactly when one of them gets HTTP 200; no attempt after the first 200; and the sleep count of each variant |
| Delivery.DeliverySpecUnique | agent.py:78-101 | that specification fixes the report completely |
| Delivery.SendWithRetries | agent.py:78-101 | the loop as written meets the same specification and equals `Deliver` |
| Delivery.FailureKindIrrelevant | agent.py:82-99 | a 4xx, a 5xx and an exception are the same failure: only which attempts got 200 matters |
| Delivery.LaterOutcomesIrrelevant | agent.py:78-101 | answers after the last attempt made are never consulted |
| Delivery.PoliciesCompared | agents/v1.1.0/agent.py:148-159 | the sleep-after-every-failure variant makes the same attempts with the same verdict; it sleeps once more exactly when every attempt failed |
| Delivery.TotalFailure | agents/v1.2.0/agent.py:255-266 | a server that never answers 200 gets three attempts; the older variant sleeps twice, the newer three times |
| Delivery.Interrupted | agents/v1.2.0/agent.py:255-266 | a Ctrl-C during an attempt or its retry sleep ends the call undelivered, after 1 to the uninterrupted number of attempts, none of the earlier ones answered 200, with one sleep fewer than attempts |
| Delivery.InterruptedIsPrefix | agents/v1.2.0/agent.py:255-266 | the interrupted call made the same attempts as the full one up to the interrupted attempt |
| Cloud.LogDetection | agents/v1.2.0/agent.py:45-54 | the message reads "`label` detected: `value`" exactly when the value is truthy, otherwise "`label` unavailable"; the source is shown only after a value, the reason only after "unavailable" |
| Cloud.LogDetectionShowsOneAnnotation | agents/v1.2.0/agent.py:45-54 | a reason never appears next to a detected value, nor a source next to a missing one |
| Cloud.DetectCloudProvider | agents/v1.2.0/agent.py:137-166 | the provider is the first of gcp, aws, azure, digitalocean whose probe answers, with source "metadata"; it is ("unknown", "unavailable") exactly when none answers |
| Cloud.InstanceTypeFromMetadata | agents/v1.2.0/agent.py:168-188 | no instance type for other providers; gcp gives the last `/`-segment of the text, aws the stripped text, azure the `compute.vmSize` answer itself; None for aws or gcp when the request raised |
| Cloud.InstanceTypeHeuristic | agents/v1.2.0/agent.py:190-199 | an answer exactly for digitalocean when psutil answered, and then the `s-{cpu}vcpu-{mem}gb` slug of that host, which is truthy and starts `s-` (`SlugInjective` shows it determines the host) |
| Cloud.SlugInjective | agents/v1.2.0/agent.py:196 | the slug determines the cpu count and memory it was made from |
| Cloud.InitializeEnvironment | agents/v1.2.0/agent.py:201-220 | two detection lines are logged |
| Cloud.InstanceTypeResolution | agents/v1.2.0/agent.py:201-220 | metadata first, then the heuristic, then unavailable; the detection source says which produced the instance type, which is set exactly when the source is not "unavailable" |
| Cloud.DetectionLines | agents/v1.2.0/agent.py:204-220 | the provider line always reads "detected", even for "unknown"; the instance-type line reads "detected" exactly when an instance type was found |
| Payload.IngestUrl | agent.py:66 | the base URL can be read back from the ingest URL |
| Payload.IngestUrlInjective | agent.py:66 | distinct base URLs never share an ingest URL |
| Payload.AuthHeaders | agent.py:67-70 | exactly the two headers, JSON content type, and a bearer token that reads back as the token |
| Payload.Nullable | agents/v1.2.0/agent.py:236-238 | None serialises as JSON null, and a receiver reading the field back (`ReadNullable`) gets exactly the optional value that was sent |
| Payload.KeyNamesDistinct | agents/v1.2.0/agent.py:230-246 | no two payload keys share a JSON name |
| Payload.DictLiteral | agents/v1.2.0/agent.py:230-239 | the literal holds the readings, `agent_version` for the copies that have one, the cloud globals (null when unset) for v1.2.0, and no OS key |
| Payload.AddOs | agents/v.1.1.0/agent.py:152-158 | the three OS keys are added exactly when their values are truthy; every other key is kept with its value |
| Payload.BuildPayload | agents/v1.2.0/agent.py:230-246 | the readings are always present; `agent_version` per copy; each OS key exactly when its value is truthy; the cloud keys exactly for v1.2.0 |
| Payload.SampleRoundTrip | agent.py:71-76 | a receiver reads back exactly the readings that were sent |
| Payload.OsRoundTrip | agents/v.1.1.0/agent.py:153-158 | a receiver reads back the detected OS fields, with None and "" both arriving as an absent key |
| Payload.OsFieldsAdded | agents/v.1.1.0/agent.py:145-158 | the rich-dialect copy sends everything agent.py sends, which has no OS key, and adds only OS keys |
| Payload.AgentVersionAdded | agents/v1.1.0/agent.py:126-139 | with the same OS fields, v1.1.0 adds exactly `agent_version` and changes nothing else |
| Payload.CloudFieldsAdded | agents/v1.2.0/agent.py:230-239 | with the same OS fields, v1.2.0 adds exactly the three cloud keys and changes only the reported version |
| Agent.LoadConfigToken | agents/v1.1.0/agent.py:45-50 | a token comes only from a JSON object's `api_key`, and a JSON object always gives its `api_key` (None when absent); every failure gives None |
| Agent.ResolveToken | agents/v1.1.0/agent.py:52 | the token is truthy exactly when `SERVER_TOKEN` is, or (v1.1.0, v1.2.0) `config.json`'s `api_key` is; a truthy env token wins |
| Agent.OsFor | agents/v.1.1.0/agent.py:134-138 | the OS fields a send uses are the cached ones when cached, else freshly detected (none for agent.py), and they are cached afterwards |
| Agent.Iteration | agent.py:114-129 | an iteration sends exactly when the readings were collected, and sends those readings with the `check_connectivity` status: "up" exactly when ping exited 0, else "down"; at most 3 attempts; exit 0 on a Ctrl-C inside the `try`, an uncaught interrupt in the sleep, else the loop goes on |
| Agent.MainLoop | agents/v1.2.0/agent.py:279-293 | the loop makes at most one send per iteration and at most 3 attempts per send, and exits only with status 0 |
| Agent.LoopRunsUntilFirstStop | agent.py:114-129 | the loop ends at the first interrupt and not before: exit 0 if it came inside the `try`, uncaught if in the sleep; it sends once per collecting iteration up to then |
| Agent.CachedOsKept | agents/v1.1.0/agent.py:88-91 | once the cache holds a tuple, every later send uses it |
| Agent.OsDetectedOnce | agents/v1.1.0/agent.py:86-118 | every send of a run carries the OS fields of the first send |
| Agent.RunAgent | agents/v1.1.0/agent.py:52-57 | exit status 1 exactly when the resolved token is falsy, and then no detection and no send; otherwise every request goes to the base URL's ingest path with the resolved bearer token and the payload of its send |
| Agent.NoOsFieldsWithoutDetection | agent.py:71-76 | agent.py never sends an OS key |
| Agent.CloudFieldsSent | agents/v1.2.0/agent.py:230-239 | v1.2.0 sends the globals `initialize_environment` set with every sample, null where unset; the other copies never send cloud keys |

## Left out

- The psutil readings and their `round(x, 2)` are inputs given as real numbers. Floating point is not modelled, and neither is the `round()` of the memory size in gigabytes.
- Real HTTP, timeouts, DNS and the time a request takes are not modelled. The server's answer to each possible attempt is an input.
- Sleep lengths (`RETRY_DELAY`, `INTERVAL`) are not modelled. Only the number of retry sleeps is counted.
- Log lines are not modelled, except the two detection lines of `initialize_environment`. The timestamps, the start-up lines, the per-attempt lines and the "Metadata payload preview" line are left out.
- The dependency bootstrap (`pip install` when an import fails) is not modelled.
- JSON key order is not modelled: the payload is a map, so the order of insertion only affects serialisation.
- A non-string `api_key` in `config.json` is not modelled. The token is a string or None.
- `Agent.MainLoop`: in agent.py and agents/v.1.1.0/agent.py, `send_metrics` catches only `RequestException` (agent.py:93, agents/v.1.1.0/agent.py:175). Any other exception raised while sending escapes to `main`'s `except Exception` (agent.py:126, agents/v.1.1.0/agent.py:208) and does not count as a failed attempt. The model only has request errors and statuses.
- `Agent.MainLoop`: a Ctrl-C that arrives while the `try` is still collecting readings, or during `send_metrics`, exits 0. Both cases are modelled. A Ctrl-C during v1.2.0's `initialize_environment` is left out. Its bare `except:` clauses swallow a Ctrl-C during a cloud probe, and one outside them is uncaught. The model runs start-up without interrupts.
- `Delivery.Interrupted`: the answer to the interrupted attempt is lost. Whether the server recorded that POST is not modelled.
- `OsRelease.DetectOs`: the Windows branch takes `platform.system()`, `platform.release()` and the registry's `ProductName` as given values. Each is None where the lookup raised. `winreg` key handling is not modelled, and neither is an `import platform` that fails.
- `OsRelease.DetectOs`: Python's universal-newline translation of `\r\n` and `\r` when reading the file is not modelled. The text is taken after translation.
- `Cloud.InstanceTypeFromMetadata`: an Azure `compute.vmSize` that is a truthy non-string JSON value (a number, list or object) is left out. The source would use it as the instance type with source "metadata", and send and log it. The model carries only string answers and reads such an answer as none.
- `VersionPattern.SearchVersionSpec`: `\d` is the Unicode decimal-digit class (general category Nd) of Unicode 15.0, the version Python 3.12 uses. Python builds with another Unicode version differ only in digits added since.
- The processes' stdout re-configuration, the `__main__` guard and `sys.exit` as an exception are not modelled. An exit is a value of the run.

Where the code and its documentation disagree, the model follows the code:

- The agents do not tell 4xx answers apart from 5xx answers or exceptions. Every non-200 answer is retried, with a fixed delay and no backoff.
- agents/v1.2.0/agent.py reports `agent_version` "v1.3.0".
- A Ctrl-C during `time.sleep(INTERVAL)` falls outside the `try` and is not caught.
- The v1.1.0 and v1.2.0 copies also sleep after the last failed attempt.

=== FILE: agent.dfy ===
/**
 The agent process: token resolution at start-up, cloud detection (v1.2.0 only), and
 the endless `main` loop that samples the host and calls `send_metrics` once a
 minute. Each loop iteration is given as a `Tick` saying what the host did during
 it; a run over finitely many ticks is the prefix of the agent's life they cover.
 */
module Agent {
  import opened Optional
  import opened PyStr
  import opened Revisions
  import opened Delivery
  import opened OsRelease
  import opened Cloud
  import opened Payload

  // ---------------------------------------------------------------------------
  // Start-up
  // ---------------------------------------------------------------------------

  /** `config.json` as `json.load(f).get("api_key")` sees it. */
  datatype ConfigFile = NoConfigFile | NotJson | NotAnObject | ConfigObject(apiKey: Option<string>)

  /** `load_config_token()`: every failure (missing file, bad JSON, no `.get`) gives None. */
  function LoadConfigToken(c: ConfigFile): (t: Option<string>)
    ensures t.Some? ==> c.ConfigObject? && c.apiKey == t
    ensures c.ConfigObject? ==> t == c.apiKey
  {
    match c
    case ConfigObject(key) => key
    case _ => None
  }

  /** The two environment variables the agent reads. */
  datatype Environment = Environment(serverToken: Option<string>, baseUrl: Option<string>)

  /** `SERVER_TOKEN`: the environment variable, and for v1.1.0 and v1.2.0
      `os.getenv("SERVER_TOKEN") or load_config_token()`. */
  function ResolveToken(rev: Revision, env: Environment, config: ConfigFile): (t: Option<string>)
    ensures Truthy(t) <==> Truthy(env.serverToken) || (ReadsConfigToken(rev) && Truthy(LoadConfigToken(config)))
    ensures Truthy(env.serverToken) ==> t == env.serverToken
    ensures Truthy(t) && !Truthy(env.serverToken) ==> ReadsConfigToken(rev) && t == LoadConfigToken(config)
  {
    if ReadsConfigToken(rev) && !Truthy(env.serverToken) then LoadConfigToken(config) else env.serverToken
  }

  /** `os.environ.get('BASE_URL', default)`: a set variable wins even when it is empty. */
  function BaseUrl(rev: Revision, env: Environment): string {
    match env.baseUrl
    case Some(url) => url
    case None => DefaultBaseUrl(rev)
  }

  // ---------------------------------------------------------------------------
  // One loop iteration
  // ---------------------------------------------------------------------------

  /** `subprocess.run(['ping', ...], timeout=3)`: an exit status, or an exception
      (timeout, no `ping` binary). */
  datatype PingResult = PingExited(code: int) | PingRaised

  /** `check_connectivity()`. */
  function Connectivity(p: PingResult): (status: string)
    ensures status == "up" <==> p == PingExited(0)
    ensures status == "up" || status == "down"
  {
    if p == PingExited(0) then "up" else "down"
  }

  /** How far the `try` block got before `send_metrics` started posting: it read the three
      percentages and the ping, raised while doing so, or was interrupted (Ctrl-C) before
      the first POST. */
  datatype TryBlock = Collected(cpu: real, memory: real, disk: real, ping: PingResult) | CollectionRaised | InterruptedBeforeSend

  /** One iteration of `while True`: the `try` block, the host's OS as `detect_os` would find
      it now, the server's answers to each possible POST, the attempt of `send_metrics`
      during which a Ctrl-C arrived (if one did), and whether the `time.sleep(INTERVAL)`
      after the `try` was interrupted. */
  datatype Tick = Tick(block: TryBlock, host: OsProbe, outcomes: seq<Outcome>, sendInterrupt: Option<nat>, interruptedInSleep: bool)

  predicate WellFormed(ticks: seq<Tick>) {
    forall i :: 0 <= i < |ticks| ==> |ticks[i].outcomes| >= MaxRetries
  }

  /** One `send_metrics` call: the readings, the OS fields it used, and how delivery went.
      The request it posts follows from these and the settings (`RequestFor`). */
  datatype Sent = Sent(sample: Sample, os: OsInfo, report: Report)

  /** How the process ends: not yet, `sys.exit(code)`, or a KeyboardInterrupt nobody
      catches (one that arrives during the sleep between iterations). */
  datatype Exit = StillRunning | ExitCode(code: int) | UncaughtInterrupt

  /** What stays fixed for the whole loop. */
  datatype Settings = Settings(rev: Revision, url: string, headers: map<string, string>, cloud: CloudInfo)

  /** The request every attempt of a send posts. */
  function RequestFor(st: Settings, s: Sent): Request {
    Request(st.url, st.headers, BuildPayload(st.rev, s.sample, s.os, st.cloud))
  }

  /** With cache `cache`, detection keeps answering `o`. */
  predicate Fixes(rev: Revision, cache: Option<OsInfo>, o: OsInfo) {
    if OsDialect(rev).None? then o == NoOs else cache == Some(o)
  }

  /** The OS fields `send_metrics` uses, and the cache afterwards. */
  function OsFor(rev: Revision, cache: Option<OsInfo>, host: OsProbe): (r: (OsInfo, Option<OsInfo>))
    ensures Fixes(rev, r.1, r.0)
    ensures forall o :: Fixes(rev, cache, o) ==> r == (o, cache)
    ensures OsDialect(rev).Some? && cache.None? ==> r.0 == DetectOs(OsDialect(rev).value, host)
  {
    match OsDialect(rev)
    case None => (NoOs, cache)
    case Some(d) => DetectOsCached(d, cache, host)
  }

  /** A Ctrl-C inside the `try`: `main`'s `except KeyboardInterrupt` exits with status 0. */
  predicate InterruptedInTry(t: Tick) {
    t.block.InterruptedBeforeSend? || (t.block.Collected? && t.sendInterrupt.Some?)
  }

  /** Interrupted in the `try` or in the sleep: the iterations after it never run. */
  predicate Stops(t: Tick) {
    InterruptedInTry(t) || t.interruptedInSleep
  }

  /** What one iteration did: the send it made, the OS cache after it, and whether the
      process ended (`StillRunning` when the loop goes on). */
  datatype Step = Step(sent: Option<Sent>, cache: Option<OsInfo>, exit: Exit)

  /** One iteration of the loop. A collection error is logged and the loop goes on; a
      failed delivery is not even an error. */
  function Iteration(st: Settings, cache: Option<OsInfo>, t: Tick): (r: Step)
    requires |t.outcomes| >= MaxRetries
    ensures r.sent.Some? <==> t.block.Collected?
    ensures r.sent.None? ==> r.cache == cache
    ensures r.sent.Some? ==> (r.sent.value.os, r.cache) == OsFor(st.rev, cache, t.host)
    ensures r.sent.Some? ==> 1 <= r.sent.value.report.attempts <= MaxRetries
    ensures r.sent.Some? ==> (r.sent.value.sample.status == "up" <==> t.block.ping == PingExited(0))
    ensures r.sent.Some? ==> r.sent.value.sample == Sample(t.block.cpu, t.block.memory, t.block.disk, Connectivity(t.block.ping))
    ensures r.sent.Some? && t.sendInterrupt.None? ==> r.sent.value.report == Deliver(Policy(st.rev), t.outcomes)
    ensures r.exit == (if InterruptedInTry(t) then ExitCode(0) else if t.interruptedInSleep then UncaughtInterrupt else StillRunning)
  {
    var after := if t.interruptedInSleep then UncaughtInterrupt else StillRunning;
    match t.block
    case InterruptedBeforeSend => Step(None, cache, ExitCode(0))
    case CollectionRaised => Step(None, cache, after)
    case Collected(cpu, memory, disk, ping) =>
      var s := Sample(cpu, memory, disk, Connectivity(ping));
      var (os, cache') := OsFor(st.rev, cache, t.host);
      DeliverMeetsSpec(Policy(st.rev), t.outcomes);
      match t.sendInterrupt
      case Some(k) => Step(Some(Sent(s, os, Interrupted(Policy(st.rev), t.outcomes, k))), cache', ExitCode(0))
      case None => Step(Some(Sent(s, os, Deliver(Policy(st.rev), t.outcomes))), cache', after)
  }

  /** The `while True` loop over `ticks`: the sends made and how it ended. */
  function MainLoop(st: Settings, cache: Option<OsInfo>, ticks: seq<Tick>): (r: (seq<Sent>, Exit))
    requires WellFormed(ticks)
    ensures r.1.ExitCode? ==> r.1.code == 0
    ensures |r.0| <= |ticks|
    ensures forall i :: 0 <= i < |r.0| ==> 1 <= r.0[i].report.attempts <= MaxRetries
    decreases |ticks|
  {
    if ticks == [] then ([], StillRunning)
    else
      var step := Iteration(st, cache, ticks[0]);
      var sent := if step.sent.Some? then [step.sent.value] else [];
      if step.exit != StillRunning then (sent, step.exit)
      else
        var rest := MainLoop(st, step.cache, ticks[1..]);
        (sent + rest.0, rest.1)
  }

  // ---------------------------------------------------------------------------
  // The whole process
  // ---------------------------------------------------------------------------

  /** What the cloud metadata endpoints and psutil answer on this host. */
  datatype CloudHost = CloudHost(probes: CloudProbes, metadata: MetadataAnswers, size: Option<HostSize>)

  /** The globals cloud detection set, the detection lines logged, the sends and the
      request each one posted, the end. */
  datatype AgentRun = AgentRun(cloud: CloudInfo, detectionLog: seq<string>, sends: seq<Sent>, requests: seq<Request>, exit: Exit)

  /** The agent process from start-up over the iterations `ticks`. */
  function RunAgent(rev: Revision, env: Environment, config: ConfigFile, host: CloudHost, ticks: seq<Tick>): (run: AgentRun)
    requires WellFormed(ticks)
    ensures run.exit == ExitCode(1) <==> !Truthy(ResolveToken(rev, env, config))
    ensures run.exit == ExitCode(1) ==> run.sends == [] && run.detectionLog == []
    ensures |run.requests| == |run.sends|
    ensures forall i :: 0 <= i < |run.requests| ==>
      && BaseOf(run.requests[i].url) == Some(BaseUrl(rev, env))
      && BearerToken(run.requests[i].headers) == ResolveToken(rev, env, config)
      && run.requests[i].payload == BuildPayload(rev, run.sends[i].sample, run.sends[i].os, run.cloud)
  {
    var token := ResolveToken(rev, env, config);
    if !Truthy(token) then
      AgentRun(Undetected, [], [], [], ExitCode(1))
    else
      var (cloud, lines) :=
        if DetectsCloud(rev) then InitializeEnvironment(host.probes, host.metadata, host.size) else (Undetected, []);
      var st := Settings(rev, IngestUrl(BaseUrl(rev, env)), AuthHeaders(token.value), cloud);
      var (sends, exit) := MainLoop(st, None, ticks);
      var requests := seq(|sends|, i requires 0 <= i < |sends| => RequestFor(st, sends[i]));
      AgentRun(cloud, lines, sends, requests, exit)
  }

  // ---------------------------------------------------------------------------
  // Properties of the loop
  // ---------------------------------------------------------------------------

  /** The index of the first iteration that stops the loop, `|ticks|` when none does. */
  function FirstStop(ticks: seq<Tick>): (k: nat)
    ensures k <= |ticks|
    ensures forall i :: 0 <= i < k ==> !Stops(ticks[i])
    ensures k < |ticks| ==> Stops(ticks[k])
  {
    if ticks == [] || Stops(ticks[0]) then 0 else 1 + FirstStop(ticks[1..])
  }

  /** How many iterations got as far as `send_metrics`. */
  function CollectedCount(ticks: seq<Tick>): nat {
    if ticks == [] then 0 else (if ticks[0].block.Collected? then 1 else 0) + CollectedCount(ticks[1..])
  }

  /** The loop survives collection errors and failed deliveries, making one send per
      iteration that collected its readings; it ends only at the first interrupt, with
      exit status 0 inside the `try` (even after some POSTs) and uncaught in the sleep. */
  lemma LoopRunsUntilFirstStop(st: Settings, cache: Option<OsInfo>, ticks: seq<Tick>)
    requires WellFormed(ticks)
    ensures var (sends, exit) := MainLoop(st, cache, ticks);
      var k := FirstStop(ticks);
      && exit == (if k == |ticks| then StillRunning
                  else if InterruptedInTry(ticks[k]) then ExitCode(0)
                  else UncaughtInterrupt)
      && |sends| == CollectedCount(ticks[..if k == |ticks| then k else k + 1])
  {
    LoopEndsAtFirstStop(st, cache, ticks);
    LoopSendsPerCollection(st, cache, ticks);
  }

  lemma {:induction false} LoopEndsAtFirstStop(st: Settings, cache: Option<OsInfo>, ticks: seq<Tick>)
    requires WellFormed(ticks)
    ensures var k := FirstStop(ticks);
      MainLoop(st, cache, ticks).1 == (if k == |ticks| then StillRunning
                                       else if InterruptedInTry(ticks[k]) then ExitCode(0)
                                       else UncaughtInterrupt)
    decreases |ticks|
  {
    if ticks != [] && !Stops(ticks[0]) {
      var step := Iteration(st, cache, ticks[0]);
      LoopEndsAtFirstStop(st, step.cache, ticks[1..]);
    }
  }

  lemma LoopSendsPerCollection(st: Settings, cache: Option<OsInfo>, ticks: seq<Tick>)
    requires WellFormed(ticks)
    ensures var k := FirstStop(ticks);
      |MainLoop(st, cache, ticks).0| == CollectedCount(ticks[..if k == |ticks| then k else k + 1])
  {
    LoopSendsUntilStop(st, cache, ticks);
    CountUntilStopIsPrefixCount(ticks);
  }

  /** The collecting iterations up to and including the first that stops the loop. */
  function CountUntilStop(ticks: seq<Tick>): nat {
    if ticks == [] then 0
    else (if ticks[0].block.Collected? then 1 else 0) + (if Stops(ticks[0]) then 0 else CountUntilStop(ticks[1..]))
  }

  lemma {:induction false} LoopSendsUntilStop(st: Settings, cache: Option<OsInfo>, ticks: seq<Tick>)
    requires WellFormed(ticks)
    ensures |MainLoop(st, cache, ticks).0| == CountUntilStop(ticks)
    decreases |ticks|
  {
    if ticks != [] && !Stops(ticks[0]) {
      LoopSendsUntilStop(st, Iteration(st, cache, ticks[0]).cache, ticks[1..]);
      LoopHeadSends(st, cache, ticks);
    }
  }

  lemma {:induction false} CountUntilStopIsPrefixCount(ticks: seq<Tick>)
    ensures var k := FirstStop(ticks);
      CountUntilStop(ticks) == CollectedCount(ticks[..if k == |ticks| then k else k + 1])
    decreases |ticks|
  {
    if ticks != [] {
      var k := FirstStop(ticks);
      var m := if k == |ticks| then k else k + 1;
      CountHead(ticks, m);
      if !Stops(ticks[0]) {
        CountUntilStopIsPrefixCount(ticks[1..]);
        assert ticks[..m][1..] == ticks[1..][..m - 1];
      } else {
        assert ticks[..m][1..] == [];
      }
    }
  }

  /** An iteration that does not stop the loop adds its send, if any, to those after it. */
  lemma LoopHeadSends(st: Settings, cache: Option<OsInfo>, ticks: seq<Tick>)
    requires WellFormed(ticks) && ticks != [] && !Stops(ticks[0])
    ensures |MainLoop(st, cache, ticks).0|
         == (if ticks[0].block.Collected? then 1 else 0) + |MainLoop(st, Iteration(st, cache, ticks[0]).cache, ticks[1..]).0|
  {
  }

  lemma CountHead(ticks: seq<Tick>, m: nat)
    requires 0 < m <= |ticks|
    ensures CollectedCount(ticks[..m]) == (if ticks[0].block.Collected? then 1 else 0) + CollectedCount(ticks[..m][1..])
  {
    assert ticks[..m][0] == ticks[0];
  }

  /** Once the cache holds `o`, every later send uses `o`. */
  lemma {:induction false} CachedOsKept(st: Settings, cache: Option<OsInfo>, o: OsInfo, ticks: seq<Tick>)
    requires WellFormed(ticks)
    requires Fixes(st.rev, cache, o)
    ensures forall i :: 0 <= i < |MainLoop(st, cache, ticks).0| ==> MainLoop(st, cache, ticks).0[i].os == o
    decreases |ticks|
  {
    if ticks != [] {
      var step := Iteration(st, cache, ticks[0]);
      CachedOsKept(st, step.cache, o, ticks[1..]);
    }
  }

  /** OS detection happens once: every send carries the same OS fields, those found at the
      first send. */
  lemma {:induction false} OsDetectedOnce(st: Settings, ticks: seq<Tick>)
    requires WellFormed(ticks)
    ensures var sends := MainLoop(st, None, ticks).0;
      forall i :: 0 <= i < |sends| ==> sends[i].os == sends[0].os
    decreases |ticks|
  {
    if ticks != [] {
      var step := Iteration(st, None, ticks[0]);
      if step.exit == StillRunning {
        if step.sent.None? {
          OsDetectedOnce(st, ticks[1..]);
          assert MainLoop(st, None, ticks).0 == MainLoop(st, None, ticks[1..]).0;
        } else {
          CachedOsKept(st, step.cache, step.sent.value.os, ticks[1..]);
          var rest := MainLoop(st, step.cache, ticks[1..]).0;
          assert MainLoop(st, None, ticks).0 == [step.sent.value] + rest;
        }
      }
    }
  }

  /** The unversioned copy, which has no `detect_os`, never sends an OS field. */
  lemma NoOsFieldsWithoutDetection(env: Environment, config: ConfigFile, host: CloudHost, ticks: seq<Tick>)
    requires WellFormed(ticks)
    ensures var run := RunAgent(Unversioned, env, config, host, ticks);
      forall i :: 0 <= i < |run.requests| ==> run.requests[i].payload.Keys !! OsKeys
  {
    var run := RunAgent(Unversioned, env, config, host, ticks);
    var token := ResolveToken(Unversioned, env, config);
    if Truthy(token) {
      var st := Settings(Unversioned, IngestUrl(BaseUrl(Unversioned, env)), AuthHeaders(token.value), Undetected);
      CachedOsKept(st, None, NoOs, ticks);
      forall i | 0 <= i < |run.requests|
        ensures run.requests[i].payload.Keys !! OsKeys
      {
        assert run.sends[i].os == NoOs;
      }
    }
  }

  /** The v1.2.0 copy sends the detected cloud fields with every sample, null where
      nothing was detected; the other copies never send them. */
  lemma CloudFieldsSent(rev: Revision, env: Environment, config: ConfigFile, host: CloudHost, ticks: seq<Tick>)
    requires WellFormed(ticks)
    ensures var run := RunAgent(rev, env, config, host, ticks);
      && (DetectsCloud(rev) && Truthy(ResolveToken(rev, env, config)) ==>
            run.cloud == InitializeEnvironment(host.probes, host.metadata, host.size).0)
      && forall i :: 0 <= i < |run.requests| ==>
           var p := run.requests[i].payload;
           && (DetectsCloud(rev) ==>
                 && p[CloudProvider] == Nullable(run.cloud.provider)
                 && p[InstanceType] == Nullable(run.cloud.instanceType)
                 && p[CloudDetectionSource] == Nullable(run.cloud.source))
           && (!DetectsCloud(rev) ==> p.Keys !! CloudKeys)
  {
  }
}

=== FILE: cloud.dfy ===
/**
 Cloud detection of agents/v1.2.0: which provider the host runs on (the first of
 four metadata probes that answers), its instance type (metadata, else a
 DigitalOcean size heuristic, else unavailable), and the `log_detection` lines
 that report both. The metadata endpoints are replaced by what they answered.
 */
module Cloud {
  import opened Optional
  import opened PyStr

  // ---------------------------------------------------------------------------
  // log_detection
  // ---------------------------------------------------------------------------

  /** `" ({tag}={x})"` when `x` is truthy, else nothing. */
  function Annotation(tag: string, x: Option<string>): string {
    if Truthy(x) then " (" + tag + "=" + x.value + ")" else ""
  }

  /** The message `log_detection(label, value, source, reason)` logs. */
  function LogDetection(subject: string, value: Option<string>, source: Option<string>, reason: Option<string>): (msg: string)
    ensures StartsWith(msg, subject + " detected: ") <==> Truthy(value)
    ensures StartsWith(msg, subject + " unavailable") <==> !Truthy(value)
    ensures Truthy(value) ==> msg[|subject| + 11..] == value.value + Annotation("source", source)
    ensures !Truthy(value) ==> msg[|subject| + 12..] == Annotation("reason", reason)
  {
    if Truthy(value) then
      var p := subject + " detected: ";
      var msg := p + (value.value + Annotation("source", source));
      assert msg[..|p|] == p && msg[|p|..] == value.value + Annotation("source", source);
      assert msg[|subject| + 1] == 'd';
      msg
    else
      var p := subject + " unavailable";
      var msg := p + Annotation("reason", reason);
      assert msg[..|p|] == p && msg[|p|..] == Annotation("reason", reason);
      assert msg[|subject| + 1] == 'u';
      msg
  }

  /** A reason is never shown next to a detected value, nor a source next to a missing one. */
  lemma LogDetectionShowsOneAnnotation(subject: string, value: Option<string>, source: Option<string>, reason: Option<string>)
    ensures Truthy(value) ==> LogDetection(subject, value, source, reason) == LogDetection(subject, value, source, None)
    ensures !Truthy(value) ==> LogDetection(subject, value, source, reason) == LogDetection(subject, value, None, reason)
  {
  }

  // ---------------------------------------------------------------------------
  // detect_cloud_provider
  // ---------------------------------------------------------------------------

  /** What a metadata GET gives: a response, or an exception (timeout, refused, ...). */
  datatype Probe = Response(status: int, body: string) | Unreachable

  /** The four probes, in the order the source makes them. */
  datatype CloudProbes = CloudProbes(gcp: Probe, aws: Probe, azure: Probe, digitalocean: Probe)

  predicate IsOk(p: Probe) { p.Response? && p.status == 200 }

  /** Azure counts only when the body mentions `compute`, DigitalOcean only `droplet_id`. */
  predicate AzureAnswers(p: Probe) { IsOk(p) && Contains(p.body, "compute") }

  predicate DigitalOceanAnswers(p: Probe) { IsOk(p) && Contains(p.body, "droplet_id") }

  const ProviderNames: seq<string> := ["gcp", "aws", "azure", "digitalocean"]

  /** Whether each probe, in order, identifies its provider. */
  function Answers(p: CloudProbes): (a: seq<bool>)
    ensures |a| == |ProviderNames|
  {
    [IsOk(p.gcp), IsOk(p.aws), AzureAnswers(p.azure), DigitalOceanAnswers(p.digitalocean)]
  }

  /** `detect_cloud_provider()`: `(provider, source)`. */
  function DetectCloudProvider(p: CloudProbes): (r: (string, string))
    ensures r.0 == "unknown" <==> forall i :: 0 <= i < |ProviderNames| ==> !Answers(p)[i]
    ensures r.0 != "unknown" ==> exists i :: 0 <= i < |ProviderNames| && FirstAnswer(p, i) && ProviderNames[i] == r.0
    ensures r.1 == (if r.0 == "unknown" then "unavailable" else "metadata")
    ensures r.0 in ProviderNames || r.0 == "unknown"
  {
    if IsOk(p.gcp) then
      assert FirstAnswer(p, 0); ("gcp", "metadata")
    else if IsOk(p.aws) then
      assert FirstAnswer(p, 1); ("aws", "metadata")
    else if AzureAnswers(p.azure) then
      assert FirstAnswer(p, 2); ("azure", "metadata")
    else if DigitalOceanAnswers(p.digitalocean) then
      assert FirstAnswer(p, 3); ("digitalocean", "metadata")
    else
      ("unknown", "unavailable")
  }

  /** Probe `i` is the first one that identifies its provider. */
  ghost predicate FirstAnswer(p: CloudProbes, i: int)
    requires 0 <= i < |ProviderNames|
  {
    Answers(p)[i] && forall j :: 0 <= j < i ==> !Answers(p)[j]
  }

  // ---------------------------------------------------------------------------
  // Instance type
  // ---------------------------------------------------------------------------

  /** The texts the instance-type endpoints answered; `None` where the request raised,
      or, for Azure, where the body was not JSON, had no `compute.vmSize`, or held a
      falsy value there (null, `""`, `0`, an empty list). Only string values are carried. */
  datatype MetadataAnswers = MetadataAnswers(awsText: Option<string>, gcpText: Option<string>, azureVmSize: Option<string>)

  /** `detect_instance_type_metadata(provider)`. No status is checked: whatever text came
      back is used. */
  function InstanceTypeFromMetadata(provider: string, m: MetadataAnswers): (r: Option<string>)
    ensures provider !in {"aws", "gcp", "azure"} ==> r == None
    ensures provider == "gcp" && m.gcpText.Some? ==>
      r.Some? && Free(r.value, '/') && IsLastSegment(r.value, m.gcpText.value, '/')
    ensures provider == "aws" && m.awsText.Some? ==> r == Some(Strip(m.awsText.value, Whitespace))
    ensures provider == "aws" && m.awsText.None? ==> r == None
    ensures provider == "gcp" && m.gcpText.None? ==> r == None
    ensures provider == "azure" ==> r == m.azureVmSize
  {
    if provider == "aws" then
      match m.awsText
      case Some(text) => Some(Strip(text, Whitespace))
      case None => None
    else if provider == "gcp" then
      match m.gcpText
      case Some(text) => LastSegmentSpec(text, '/'); Some(LastSegment(text, '/'))
      case None => None
    else if provider == "azure" then
      m.azureVmSize
    else
      None
  }

  /** `psutil.cpu_count(logical=True)` (which may be None) and the memory in whole GiB. */
  datatype HostSize = HostSize(cpuCount: Option<nat>, memGb: nat)

  /** `str()` of a count that may be None. */
  function CountText(n: Option<nat>): string {
    match n
    case Some(k) => NatToString(k)
    case None => "None"
  }

  /** The DigitalOcean size slug `s-{cpu}vcpu-{mem_gb}gb`. */
  function Slug(h: HostSize): string {
    "s-" + (CountText(h.cpuCount) + ("vcpu-" + (NatToString(h.memGb) + "gb")))
  }

  /** `detect_instance_type_heuristic(provider)`: only DigitalOcean has one. `host` is
      None when psutil raised, which the function swallows. */
  function InstanceTypeHeuristic(provider: string, host: Option<HostSize>): (r: Option<string>)
    ensures r.Some? <==> provider == "digitalocean" && host.Some?
    ensures r.Some? ==> Truthy(r) && StartsWith(r.value, "s-")
    ensures r.Some? ==> r.value == Slug(host.value)
  {
    match host
    case Some(h) => if provider == "digitalocean" then Some(Slug(h)) else None
    case None => None
  }

  /** The slug pins down the host size it was made from. */
  lemma SlugInjective(h: HostSize, h': HostSize)
    requires h.cpuCount.Some? && h'.cpuCount.Some?
    requires Slug(h) == Slug(h')
    ensures h == h'
  {
    var a, a' := NatToString(h.cpuCount.value), NatToString(h'.cpuCount.value);
    var b, b' := NatToString(h.memGb), NatToString(h'.memGb);
    var x, x' := "vcpu-" + (b + "gb"), "vcpu-" + (b' + "gb");
    var s := Slug(h);
    assert s[2..] == a + x;
    assert s[2..] == a' + x';
    DigitPrefixSplit(s[2..], a, x, a', x');
    NatToStringInjective(h.cpuCount.value, h'.cpuCount.value);
    assert x[5..] == b + "gb" && x'[5..] == b' + "gb";
    DigitPrefixSplit(x[5..], b, "gb", b', "gb");
    NatToStringInjective(h.memGb, h'.memGb);
  }

  /** Two ways of writing `t` as digits followed by a rest that starts with a non-digit agree. */
  lemma DigitPrefixSplit(t: string, a: string, x: string, a': string, x': string)
    requires t == a + x && t == a' + x'
    requires forall i :: 0 <= i < |a| ==> IsDigit(a[i])
    requires forall i :: 0 <= i < |a'| ==> IsDigit(a'[i])
    requires |x| > 0 && !IsDigit(x[0]) && |x'| > 0 && !IsDigit(x'[0])
    ensures a == a' && x == x'
  {
    assert a == t[..|a|] && a' == t[..|a'|];
  }

  // ---------------------------------------------------------------------------
  // initialize_environment
  // ---------------------------------------------------------------------------

  /** `CLOUD_PROVIDER`, `INSTANCE_TYPE` and `DETECTION_SOURCE` once set. */
  datatype CloudInfo = CloudInfo(provider: Option<string>, instanceType: Option<string>, source: Option<string>)

  /** The globals before `initialize_environment` runs. */
  const Undetected := CloudInfo(None, None, None)

  /** `initialize_environment()`: the globals it sets and the detection lines it logs. */
  function InitializeEnvironment(probes: CloudProbes, m: MetadataAnswers, h: Option<HostSize>): (r: (CloudInfo, seq<string>))
    ensures |r.1| == 2
  {
    var (provider, providerSource) := DetectCloudProvider(probes);
    var line1 := LogDetection("Cloud provider", Some(provider), Some(providerSource), None);
    var instance := InstanceTypeFromMetadata(provider, m);
    if Truthy(instance) then
      (CloudInfo(Some(provider), instance, Some("metadata")),
       [line1, LogDetection("Instance type", instance, Some("metadata"), None)])
    else
      var heuristic := InstanceTypeHeuristic(provider, h);
      if Truthy(heuristic) then
        (CloudInfo(Some(provider), heuristic, Some("heuristic")),
         [line1, LogDetection("Instance type", heuristic, Some("heuristic"), None)])
      else
        (CloudInfo(Some(provider), None, Some("unavailable")),
         [line1, LogDetection("Instance type", None, None, Some("not_exposed_by_metadata"))])
  }

  /** Metadata first, then the heuristic, then unavailable; the source names which one
      produced the instance type, which is set exactly when the source is not
      "unavailable". */
  lemma InstanceTypeResolution(probes: CloudProbes, m: MetadataAnswers, h: Option<HostSize>)
    ensures var (info, _) := InitializeEnvironment(probes, m, h);
      var provider := DetectCloudProvider(probes).0;
      var meta := InstanceTypeFromMetadata(provider, m);
      var heur := InstanceTypeHeuristic(provider, h);
      && info.provider == Some(provider)
      && (info.source == Some("metadata") <==> Truthy(meta))
      && (info.source == Some("metadata") ==> info.instanceType == meta)
      && (info.source == Some("heuristic") <==> !Truthy(meta) && provider == "digitalocean" && h.Some?)
      && (info.source == Some("heuristic") ==> info.instanceType == heur)
      && (info.source == Some("unavailable") <==> !Truthy(meta) && !(provider == "digitalocean" && h.Some?))
      && (info.source == Some("unavailable") <==> info.instanceType == None)
  {
  }

  /** The provider line always reads "detected", even for "unknown"; the instance-type line
      reads "detected" exactly when an instance type was found. */
  lemma DetectionLines(probes: CloudProbes, m: MetadataAnswers, h: Option<HostSize>)
    ensures var (info, lines) := InitializeEnvironment(probes, m, h);
      && StartsWith(lines[0], "Cloud provider" + " detected: ")
      && (StartsWith(lines[1], "Instance type" + " detected: ") <==> info.instanceType.Some?)
  {
    var (provider, _) := DetectCloudProvider(probes);
    assert provider != "";
  }
}

=== FILE: delivery.dfy ===
/**
 The bounded retry loop of `send_metrics`: up to `MAX_RETRIES` POSTs, stopping at
 the first HTTP 200. Every other status and every request exception count alike
 as a failure. Two variants exist: agent.py and agents/v.1.1.0 sleep only between
 attempts; agents/v1.1.0 and agents/v1.2.0 sleep after every failure, the last one
 included. The server's answers are given as one outcome per possible attempt;
 sleeps are counted, not timed.
 */
module Delivery {

  /** `MAX_RETRIES`, the number of POST attempts per send. The sleeps between them last
      `RETRY_DELAY` (5) seconds each; only their number is modelled. */
  const MaxRetries: nat := 3

  /** What one `requests.post` gives: a response with a status code, or an exception. */
  datatype Outcome = Status(code: int) | RequestError

  predicate Succeeded(o: Outcome) {
    o.Status? && o.code == 200
  }

  datatype SleepPolicy = SleepBetweenAttempts | SleepAfterEveryFailure

  /** What a call of `send_metrics` did: whether some attempt got a 200, how many POSTs
      were made, how many retry sleeps completed. This records what happened; it is not
      the function's return value (the newer copies return None either way, and `main`
      ignores it in all of them). */
  datatype Report = Report(delivered: bool, attempts: nat, sleeps: nat)

  /** The loop body from attempt number `attempt` on, `sleeps` sleeps taken so far. */
  function AttemptsFrom(policy: SleepPolicy, outcomes: seq<Outcome>, attempt: nat, sleeps: nat): Report
    requires |outcomes| >= MaxRetries
    requires 1 <= attempt <= MaxRetries + 1
    decreases MaxRetries + 1 - attempt
  {
    if attempt > MaxRetries then
      // the loop ran out; only the sleep-after-every-failure variant gets here
      Report(false, MaxRetries, sleeps)
    else if Succeeded(outcomes[attempt - 1]) then
      Report(true, attempt, sleeps)
    else if policy == SleepBetweenAttempts && attempt == MaxRetries then
      Report(false, attempt, sleeps)
    else
      AttemptsFrom(policy, outcomes, attempt + 1, sleeps + 1)
  }

  /** One call of `send_metrics`, as far as delivery goes. */
  function Deliver(policy: SleepPolicy, outcomes: seq<Outcome>): Report
    requires |outcomes| >= MaxRetries
  {
    AttemptsFrom(policy, outcomes, 1, 0)
  }

  /** What the loop promises, stated without reference to how it runs. */
  ghost predicate DeliverySpec(policy: SleepPolicy, outcomes: seq<Outcome>, r: Report)
    requires |outcomes| >= MaxRetries
  {
    && 1 <= r.attempts <= MaxRetries
    && (r.delivered <==> exists k :: 0 <= k < MaxRetries && Succeeded(outcomes[k]))
    && (forall k :: 0 <= k < r.attempts - 1 ==> !Succeeded(outcomes[k]))
    && (r.delivered ==> Succeeded(outcomes[r.attempts - 1]))
    && (!r.delivered ==> r.attempts == MaxRetries)
    && r.sleeps == (if policy == SleepAfterEveryFailure && !r.delivered then r.attempts else r.attempts - 1)
  }

  lemma {:induction false} AttemptsFromSpec(policy: SleepPolicy, outcomes: seq<Outcome>, attempt: nat)
    requires |outcomes| >= MaxRetries
    requires 1 <= attempt <= MaxRetries + 1
    requires forall k :: 0 <= k < attempt - 1 ==> !Succeeded(outcomes[k])
    requires policy == SleepBetweenAttempts ==> attempt <= MaxRetries
    ensures DeliverySpec(policy, outcomes, AttemptsFrom(policy, outcomes, attempt, attempt - 1))
    decreases MaxRetries + 1 - attempt
  {
    if attempt <= MaxRetries && !Succeeded(outcomes[attempt - 1])
      && !(policy == SleepBetweenAttempts && attempt == MaxRetries)
    {
      AttemptsFromSpec(policy, outcomes, attempt + 1);
    }
  }

  /** At most `MAX_RETRIES` attempts; success exactly when one of them gets a 200, and then
      no attempt after the first 200; the sleep count each variant takes. */
  lemma DeliverMeetsSpec(policy: SleepPolicy, outcomes: seq<Outcome>)
    requires |outcomes| >= MaxRetries
    ensures DeliverySpec(policy, outcomes, Deliver(policy, outcomes))
  {
    AttemptsFromSpec(policy, outcomes, 1);
  }

  /** The spec pins the report down completely. */
  lemma DeliverySpecUnique(policy: SleepPolicy, outcomes: seq<Outcome>, r: Report, r': Report)
    requires |outcomes| >= MaxRetries
    requires DeliverySpec(policy, outcomes, r) && DeliverySpec(policy, outcomes, r')
    ensures r == r'
  {
  }

  /** The loop as the source writes it. */
  method SendWithRetries(policy: SleepPolicy, outcomes: seq<Outcome>) returns (r: Report)
    requires |outcomes| >= MaxRetries
    ensures 1 <= r.attempts <= MaxRetries
    ensures r.delivered <==> exists k :: 0 <= k < MaxRetries && Succeeded(outcomes[k])
    ensures forall k :: 0 <= k < r.attempts - 1 ==> !Succeeded(outcomes[k])
    ensures r.delivered ==> Succeeded(outcomes[r.attempts - 1])
    ensures !r.delivered ==> r.attempts == MaxRetries
    ensures policy == SleepBetweenAttempts ==> r.sleeps == r.attempts - 1
    ensures policy == SleepAfterEveryFailure ==> r.sleeps == if r.delivered then r.attempts - 1 else r.attempts
    ensures r == Deliver(policy, outcomes)
  {
    var sleeps := 0;
    var attempt := 1;
    while attempt <= MaxRetries
      invariant 1 <= attempt <= MaxRetries + 1
      invariant sleeps == attempt - 1
      invariant forall k :: 0 <= k < attempt - 1 ==> !Succeeded(outcomes[k])
      invariant policy == SleepBetweenAttempts ==> attempt <= MaxRetries
      invariant Deliver(policy, outcomes) == AttemptsFrom(policy, outcomes, attempt, sleeps)
      decreases MaxRetries + 1 - attempt
    {
      if Succeeded(outcomes[attempt - 1]) {
        r := Report(true, attempt, sleeps);
        DeliverMeetsSpec(policy, outcomes);
        return;
      }
      if policy == SleepBetweenAttempts {
        if attempt < MaxRetries {
          sleeps := sleeps + 1;
        } else {
          r := Report(false, attempt, sleeps);
          DeliverMeetsSpec(policy, outcomes);
          return;
        }
      } else {
        sleeps := sleeps + 1;
      }
      attempt := attempt + 1;
    }
    r := Report(false, MaxRetries, sleeps);
    DeliverMeetsSpec(policy, outcomes);
  }

  /** A KeyboardInterrupt during attempt `k` (counted from 1), or during the sleep after
      it, ends `send_metrics` there: neither `except` clause catches it. That attempt's
      answer is lost and its sleep does not complete. A `k` past the attempts the call
      would make stands for its last attempt, and 0 for the first. */
  function Interrupted(policy: SleepPolicy, outcomes: seq<Outcome>, k: nat): (r: Report)
    requires |outcomes| >= MaxRetries
    ensures !r.delivered && r.sleeps == r.attempts - 1
    ensures 1 <= r.attempts <= Deliver(policy, outcomes).attempts
    ensures forall j :: 0 <= j < r.attempts - 1 ==> !Succeeded(outcomes[j])
  {
    DeliverMeetsSpec(policy, outcomes);
    var last := Deliver(policy, outcomes).attempts;
    var made := if k < 1 then 1 else if k > last then last else k;
    Report(false, made, made - 1)
  }

  /** An interrupted call made the same POSTs as the uninterrupted one up to the attempt
      that was cut short; when that is the last attempt and no 200 came, it differs from
      the full run only in the lost answer and the sleep after it. */
  lemma InterruptedIsPrefix(policy: SleepPolicy, outcomes: seq<Outcome>, k: nat)
    requires |outcomes| >= MaxRetries
    ensures var r, full := Interrupted(policy, outcomes, k), Deliver(policy, outcomes);
      && r.attempts <= full.attempts
      && (1 <= k <= full.attempts ==> r.attempts == k)
      && (k >= full.attempts && !full.delivered ==>
            r.attempts == full.attempts && r.sleeps <= full.sleeps)
  {
    DeliverMeetsSpec(policy, outcomes);
  }

  /** Which kind of failure an attempt meets (a 4xx, a 5xx, an exception) makes no difference:
      only whether each attempt got a 200 matters. */
  lemma {:induction false} FailureKindIrrelevant(policy: SleepPolicy, o1: seq<Outcome>, o2: seq<Outcome>)
    requires |o1| >= MaxRetries && |o2| >= MaxRetries
    requires forall k :: 0 <= k < MaxRetries ==> (Succeeded(o1[k]) <==> Succeeded(o2[k]))
    ensures Deliver(policy, o1) == Deliver(policy, o2)
  {
    DeliverMeetsSpec(policy, o1);
    DeliverMeetsSpec(policy, o2);
    var r1, r2 := Deliver(policy, o1), Deliver(policy, o2);
    assert DeliverySpec(policy, o1, r2);
    DeliverySpecUnique(policy, o1, r1, r2);
  }

  /** Outcomes after the last attempt made are never consulted. */
  lemma LaterOutcomesIrrelevant(policy: SleepPolicy, o1: seq<Outcome>, o2: seq<Outcome>)
    requires |o1| >= MaxRetries && |o2| >= MaxRetries
    requires forall k :: 0 <= k < Deliver(policy, o1).attempts ==> o1[k] == o2[k]
    ensures Deliver(policy, o1) == Deliver(policy, o2)
  {
    DeliverMeetsSpec(policy, o1);
    DeliverMeetsSpec(policy, o2);
    var r1, r2 := Deliver(policy, o1), Deliver(policy, o2);
    if r1.delivered {
      assert Succeeded(o2[r1.attempts - 1]);
    }
    assert DeliverySpec(policy, o2, r1);
    DeliverySpecUnique(policy, o2, r1, r2);
  }

  /** The two variants make the same attempts and reach the same verdict; the
      sleep-after-every-failure one sleeps once more exactly when every attempt failed. */
  lemma PoliciesCompared(outcomes: seq<Outcome>)
    requires |outcomes| >= MaxRetries
    ensures var b, a := Deliver(SleepBetweenAttempts, outcomes), Deliver(SleepAfterEveryFailure, outcomes);
      && b.delivered == a.delivered && b.attempts == a.attempts
      && a.sleeps == b.sleeps + (if a.delivered then 0 else 1)
  {
    DeliverMeetsSpec(SleepBetweenAttempts, outcomes);
    DeliverMeetsSpec(SleepAfterEveryFailure, outcomes);
    var b, a := Deliver(SleepBetweenAttempts, outcomes), Deliver(SleepAfterEveryFailure, outcomes);
  }

  /** A server that never answers 200 gets all three attempts; the sleep-between variant
      sleeps twice, the other three times. */
  lemma TotalFailure(policy: SleepPolicy, outcomes: seq<Outcome>)
    requires |outcomes| >= MaxRetries
    requires forall k :: 0 <= k < MaxRetries ==> !Succeeded(outcomes[k])
    ensures Deliver(policy, outcomes) == Report(false, 3, if policy == SleepBetweenAttempts then 2 else 3)
  {
    DeliverMeetsSpec(policy, outcomes);
  }
}

=== FILE: osrelease.dfy ===
/**
 `detect_os`: the `(os_type, os_name, os_version)` tuple the agents attach to
 their reports, read from `/etc/os-release` on Linux.

 Two dialects exist. The rich one (agents/v.1.1.0) lets `PRETTY_NAME` overwrite
 the name, lets `NAME` and `ID` fill an empty name, takes `VERSION_ID`, and falls
 back to the first `digits.digits` in a `VERSION` line. The simple one
 (agents/v1.1.0, agents/v1.2.0) reads only `PRETTY_NAME` and `VERSION_ID`, and the
 last line of each kind wins.
 */
module OsRelease {
  import opened Optional
  import opened PyStr
  import opened VersionPattern

  /** The tuple `detect_os` returns; `None` for values it could not find. */
  datatype OsInfo = OsInfo(osType: Option<string>, osName: Option<string>, osVersion: Option<string>)

  /** The OS fields of a copy that does no detection, and of an unknown platform. */
  const NoOs := OsInfo(None, None, None)

  /** What reading `/etc/os-release` yields (newlines already translated to `\n`). */
  datatype OsReleaseFile =
    | Unreadable                // open() raises
    | Complete(text: string)    // the whole file was read
    | BrokenAfter(text: string) // reading raised after the lines of `text` had been read

  /** What the `platform` module (and, for the rich dialect, the registry's
      `ProductName`) report on Windows; `None` where the lookup failed. */
  datatype WindowsProbe = WindowsProbe(system: Option<string>, release: Option<string>, productName: Option<string>)

  /** Everything `detect_os` consults: `sys.platform`, the os-release file, the Windows APIs. */
  datatype OsProbe = OsProbe(platform: string, file: OsReleaseFile, windows: WindowsProbe)

  datatype Dialect = Rich | Simple

  /** The name and version gathered so far while scanning the file. */
  datatype Fields = Fields(name: Option<string>, version: Option<string>)

  const NoFields := Fields(None, None)

  predicate IsLinux(platform: string) { StartsWith(platform, "linux") }

  predicate IsWindows(platform: string) { StartsWith(platform, "win") }

  /** `line.split('=', 1)[1]` for a line that starts with `key` followed by `=`: everything
      after the key and its `=` when, as for every key the agents look for, the key has
      no `=` of its own. */
  function RawValue(line: string, key: string): (v: string)
    requires StartsWith(line, key + "=")
    ensures '=' !in key ==> v == line[|key| + 1..]
  {
    assert line[|key|] == '=';
    var v := AfterFirst(line, '=');
    assert line[..|key|] == key;
    v
  }

  /** `.strip().strip('"').strip("'")` in the rich dialect. */
  function RichClean(v: string): string {
    Strip(Strip(Strip(v, Whitespace), {'"'}), {'\''})
  }

  /** `.strip().strip('"')` in the simple dialect. */
  function SimpleClean(v: string): string {
    Strip(Strip(v, Whitespace), {'"'})
  }

  function RichValue(line: string, key: string): string
    requires StartsWith(line, key + "=")
  {
    RichClean(RawValue(line, key))
  }

  function SimpleValue(line: string, key: string): string
    requires StartsWith(line, key + "=")
  {
    SimpleClean(RawValue(line, key))
  }

  predicate IsKeyLine(line: string, key: string) { StartsWith(line, key + "=") }

  /** One iteration of the rich dialect's `if/elif` chain, as written. */
  function RichStep(f: Fields, line: string): Fields {
    if IsKeyLine(line, "PRETTY_NAME") then
      f.(name := Some(RichValue(line, "PRETTY_NAME")))
    else if IsKeyLine(line, "NAME") && !Truthy(f.name) then
      f.(name := Some(RichValue(line, "NAME")))
    else if IsKeyLine(line, "ID") && !Truthy(f.name) then
      f.(name := Some(RichValue(line, "ID")))
    else if IsKeyLine(line, "VERSION_ID") then
      f.(version := Some(RichValue(line, "VERSION_ID")))
    else if IsKeyLine(line, "VERSION") && !Truthy(f.version) then
      FillVersion(f, SearchVersion(RichValue(line, "VERSION")))
    else
      f
  }

  /** `if match: os_version = match.group(0)` */
  function FillVersion(f: Fields, found: Option<string>): (g: Fields)
    ensures g.name == f.name
    ensures g.version == if found.Some? then found else f.version
  {
    match found
    case Some(v) => f.(version := Some(v))
    case None => f
  }

  /** One iteration of the simple dialect's `if/elif`, as written. */
  function SimpleStep(f: Fields, line: string): Fields {
    if IsKeyLine(line, "PRETTY_NAME") then
      f.(name := Some(SimpleValue(line, "PRETTY_NAME")))
    else if IsKeyLine(line, "VERSION_ID") then
      f.(version := Some(SimpleValue(line, "VERSION_ID")))
    else
      f
  }

  /** What one line of the file says, once its key is recognised and its value cleaned. */
  datatype Entry =
    | PrettyName(value: string)
    | Name(value: string)
    | Id(value: string)
    | VersionId(value: string)
    | Version(found: Option<string>)  // the leftmost `digits.digits` of the value, if any
    | Ignored

  /** The keys are tested in the source's order; at most one of them prefixes a line. */
  function ClassifyRich(line: string): (e: Entry)
    ensures e.Version? && e.found.Some? ==> |e.found.value| >= 3
  {
    if IsKeyLine(line, "PRETTY_NAME") then PrettyName(RichValue(line, "PRETTY_NAME"))
    else if IsKeyLine(line, "NAME") then Name(RichValue(line, "NAME"))
    else if IsKeyLine(line, "ID") then Id(RichValue(line, "ID"))
    else if IsKeyLine(line, "VERSION_ID") then VersionId(RichValue(line, "VERSION_ID"))
    else if IsKeyLine(line, "VERSION") then
      SearchVersionSpec(RichValue(line, "VERSION"));
      Version(SearchVersion(RichValue(line, "VERSION")))
    else Ignored
  }

  function ClassifySimple(line: string): Entry {
    if IsKeyLine(line, "PRETTY_NAME") then PrettyName(SimpleValue(line, "PRETTY_NAME"))
    else if IsKeyLine(line, "VERSION_ID") then VersionId(SimpleValue(line, "VERSION_ID"))
    else Ignored
  }

  /** The rich dialect's guards: `PRETTY_NAME` overwrites, `NAME`/`ID` only fill an empty
      name, `VERSION_ID` overwrites, a `VERSION` match only fills an empty version. */
  function ApplyRich(f: Fields, e: Entry): Fields {
    match e
    case PrettyName(v) => f.(name := Some(v))
    case Name(v) => if Truthy(f.name) then f else f.(name := Some(v))
    case Id(v) => if Truthy(f.name) then f else f.(name := Some(v))
    case VersionId(v) => f.(version := Some(v))
    case Version(found) => if Truthy(f.version) then f else FillVersion(f, found)
    case Ignored => f
  }

  /** The simple dialect: every `PRETTY_NAME` and `VERSION_ID` line overwrites. */
  function ApplySimple(f: Fields, e: Entry): Fields {
    match e
    case PrettyName(v) => f.(name := Some(v))
    case VersionId(v) => f.(version := Some(v))
    case _ => f
  }

  /** Recognising the line first and then applying the guards is the source's chain. */
  lemma RichStepClassified(f: Fields, line: string)
    ensures RichStep(f, line) == ApplyRich(f, ClassifyRich(line))
  {
    if IsKeyLine(line, "PRETTY_NAME") {
      RichStepOnPrettyName(f, line);
    } else if IsKeyLine(line, "NAME") {
      RichStepOnName(f, line);
    } else if IsKeyLine(line, "ID") {
      RichStepOnId(f, line);
    } else if IsKeyLine(line, "VERSION_ID") {
      RichStepOnVersionId(f, line);
    } else if IsKeyLine(line, "VERSION") {
      RichStepOnVersion(f, line);
    } else {
      RichStepOnOther(f, line);
    }
  }

  lemma RichStepOnPrettyName(f: Fields, line: string)
    requires IsKeyLine(line, "PRETTY_NAME")
    ensures RichStep(f, line) == ApplyRich(f, ClassifyRich(line))
  {
  }

  /** A `NAME=` line under a name already set falls through the rest of the chain. */
  lemma RichStepOnName(f: Fields, line: string)
    requires !IsKeyLine(line, "PRETTY_NAME") && IsKeyLine(line, "NAME")
    ensures RichStep(f, line) == ApplyRich(f, ClassifyRich(line))
  {
    NameLineIsNoOther(line);
  }

  lemma RichStepOnId(f: Fields, line: string)
    requires !IsKeyLine(line, "PRETTY_NAME") && !IsKeyLine(line, "NAME") && IsKeyLine(line, "ID")
    ensures RichStep(f, line) == ApplyRich(f, ClassifyRich(line))
  {
    IdLineIsNoOther(line);
  }

  lemma RichStepOnVersionId(f: Fields, line: string)
    requires !IsKeyLine(line, "PRETTY_NAME") && !IsKeyLine(line, "NAME") && !IsKeyLine(line, "ID")
    requires IsKeyLine(line, "VERSION_ID")
    ensures RichStep(f, line) == ApplyRich(f, ClassifyRich(line))
  {
    VersionIdLineIsNoVersion(line);
  }

  lemma RichStepOnVersion(f: Fields, line: string)
    requires !IsKeyLine(line, "PRETTY_NAME") && !IsKeyLine(line, "NAME") && !IsKeyLine(line, "ID")
    requires !IsKeyLine(line, "VERSION_ID") && IsKeyLine(line, "VERSION")
    ensures RichStep(f, line) == ApplyRich(f, ClassifyRich(line))
  {
  }

  lemma RichStepOnOther(f: Fields, line: string)
    requires !IsKeyLine(line, "PRETTY_NAME") && !IsKeyLine(line, "NAME") && !IsKeyLine(line, "ID")
    requires !IsKeyLine(line, "VERSION_ID") && !IsKeyLine(line, "VERSION")
    ensures RichStep(f, line) == ApplyRich(f, ClassifyRich(line))
  {
  }

  lemma SimpleStepClassified(f: Fields, line: string)
    ensures SimpleStep(f, line) == ApplySimple(f, ClassifySimple(line))
  {
  }

  /** No line starts with two of the five keys: they differ in their first character,
      except `VERSION_ID` and `VERSION`, which differ in their eighth. */
  lemma NameLineIsNoOther(line: string)
    requires IsKeyLine(line, "NAME")
    ensures !IsKeyLine(line, "ID") && !IsKeyLine(line, "VERSION_ID") && !IsKeyLine(line, "VERSION")
  {
    assert line[0] == 'N';
  }

  lemma IdLineIsNoOther(line: string)
    requires IsKeyLine(line, "ID")
    ensures !IsKeyLine(line, "VERSION_ID") && !IsKeyLine(line, "VERSION")
  {
    assert line[0] == 'I';
  }

  lemma VersionIdLineIsNoVersion(line: string)
    requires IsKeyLine(line, "VERSION_ID")
    ensures !IsKeyLine(line, "VERSION")
  {
    assert line[7] == '_';
  }

  /** The rich dialect's fields after its loop has seen the first `n` entries. */
  function RichAfter(es: seq<Entry>, n: nat): Fields
    requires n <= |es|
  {
    if n == 0 then NoFields else ApplyRich(RichAfter(es, n - 1), es[n - 1])
  }

  /** The simple dialect's fields after its loop has seen the first `n` entries. */
  function SimpleAfter(es: seq<Entry>, n: nat): Fields
    requires n <= |es|
  {
    if n == 0 then NoFields else ApplySimple(SimpleAfter(es, n - 1), es[n - 1])
  }

  /** The loop of the rich dialect over the lines of the file, as written. */
  function RichLoop(f: Fields, lines: seq<string>): Fields
    decreases |lines|
  {
    if lines == [] then f else RichLoop(RichStep(f, lines[0]), lines[1..])
  }

  function SimpleLoop(f: Fields, lines: seq<string>): Fields
    decreases |lines|
  {
    if lines == [] then f else SimpleLoop(SimpleStep(f, lines[0]), lines[1..])
  }

  function ClassifyAll(d: Dialect, lines: seq<string>): (es: seq<Entry>)
    ensures |es| == |lines|
  {
    seq(|lines|, i requires 0 <= i < |lines| =>
      if d == Rich then ClassifyRich(lines[i]) else ClassifySimple(lines[i]))
  }

  /** The rich loop over the lines equals the fold of `ApplyRich` over their entries. */
  lemma {:induction false} RichLoopIsFold(lines: seq<string>, n: nat)
    requires n <= |lines|
    ensures RichLoop(RichAfter(ClassifyAll(Rich, lines), n), lines[n..])
         == RichAfter(ClassifyAll(Rich, lines), |lines|)
    decreases |lines| - n
  {
    if n < |lines| {
      var es := ClassifyAll(Rich, lines);
      RichStepClassified(RichAfter(es, n), lines[n]);
      assert lines[n..][1..] == lines[n + 1..];
      RichLoopIsFold(lines, n + 1);
    }
  }

  lemma {:induction false} SimpleLoopIsFold(lines: seq<string>, n: nat)
    requires n <= |lines|
    ensures SimpleLoop(SimpleAfter(ClassifyAll(Simple, lines), n), lines[n..])
         == SimpleAfter(ClassifyAll(Simple, lines), |lines|)
    decreases |lines| - n
  {
    if n < |lines| {
      var es := ClassifyAll(Simple, lines);
      SimpleStepClassified(SimpleAfter(es, n), lines[n]);
      assert lines[n..][1..] == lines[n + 1..];
      SimpleLoopIsFold(lines, n + 1);
    }
  }

  /** The fields the rich dialect's `for` loop leaves behind. */
  function ParseRich(lines: seq<string>): (f: Fields)
    ensures f == RichAfter(ClassifyAll(Rich, lines), |lines|)
  {
    RichLoopIsFold(lines, 0);
    RichLoop(NoFields, lines)
  }

  /** The fields the simple dialect's `for` loop leaves behind. */
  function ParseSimple(lines: seq<string>): (f: Fields)
    ensures f == SimpleAfter(ClassifyAll(Simple, lines), |lines|)
  {
    SimpleLoopIsFold(lines, 0);
    SimpleLoop(NoFields, lines)
  }

  // ---------------------------------------------------------------------------
  // Rich dialect: which line decides the name and the version
  // ---------------------------------------------------------------------------

  /** Once the name is non-empty, only a `PRETTY_NAME=` line can change it. */
  lemma {:induction false} RichNameKept(es: seq<Entry>, n0: nat, n: nat)
    requires n0 <= n <= |es|
    requires Truthy(RichAfter(es, n0).name)
    requires forall q :: n0 <= q < n ==> !es[q].PrettyName?
    ensures RichAfter(es, n).name == RichAfter(es, n0).name
    decreases n
  {
    if n > n0 {
      RichNameKept(es, n0, n - 1);
    }
  }

  /** With a non-empty `PRETTY_NAME=` line and no later one, the name is that line's value,
      wherever `NAME=` and `ID=` lines occur. */
  lemma RichPrettyNameWins(es: seq<Entry>, p: nat)
    requires p < |es| && es[p].PrettyName? && es[p].value != ""
    requires forall q :: p < q < |es| ==> !es[q].PrettyName?
    ensures RichAfter(es, |es|).name == Some(es[p].value)
  {
    RichNameKept(es, p + 1, |es|);
  }

  predicate NameLikeWithValue(e: Entry) {
    (e.Name? || e.Id?) && e.value != ""
  }

  /** Without `PRETTY_NAME=` lines, and before the first `NAME=`/`ID=` line with a value,
      the name stays empty. */
  lemma {:induction false} RichNameEmptyBefore(es: seq<Entry>, n: nat)
    requires n <= |es|
    requires forall q :: 0 <= q < n ==> !es[q].PrettyName? && !NameLikeWithValue(es[q])
    ensures !Truthy(RichAfter(es, n).name)
    decreases n
  {
    if n > 0 {
      RichNameEmptyBefore(es, n - 1);
    }
  }

  /** Without `PRETTY_NAME=` lines, the name is the first non-empty `NAME=`/`ID=` value
      in file order. */
  lemma RichNameFallback(es: seq<Entry>, q: nat)
    requires forall i :: 0 <= i < |es| ==> !es[i].PrettyName?
    requires q < |es| && NameLikeWithValue(es[q])
    requires forall i :: 0 <= i < q ==> !NameLikeWithValue(es[i])
    ensures RichAfter(es, |es|).name == Some(es[q].value)
  {
    RichNameEmptyBefore(es, q);
    RichNameKept(es, q + 1, |es|);
  }

  /** Without any `PRETTY_NAME=` line or non-empty `NAME=`/`ID=` value, no name is reported. */
  lemma RichNameAbsent(es: seq<Entry>)
    requires forall i :: 0 <= i < |es| ==> !es[i].PrettyName? && !NameLikeWithValue(es[i])
    ensures !Truthy(RichAfter(es, |es|).name)
  {
    RichNameEmptyBefore(es, |es|);
  }

  /** Once the version is non-empty, only a `VERSION_ID=` line can change it. */
  lemma {:induction false} RichVersionKept(es: seq<Entry>, n0: nat, n: nat)
    requires n0 <= n <= |es|
    requires Truthy(RichAfter(es, n0).version)
    requires forall q :: n0 <= q < n ==> !es[q].VersionId?
    ensures RichAfter(es, n).version == RichAfter(es, n0).version
    decreases n
  {
    if n > n0 {
      RichVersionKept(es, n0, n - 1);
    }
  }

  /** With a non-empty `VERSION_ID=` line and no later one, the version is that line's
      value, wherever `VERSION=` lines occur. */
  lemma RichVersionIdWins(es: seq<Entry>, p: nat)
    requires p < |es| && es[p].VersionId? && es[p].value != ""
    requires forall q :: p < q < |es| ==> !es[q].VersionId?
    ensures RichAfter(es, |es|).version == Some(es[p].value)
  {
    RichVersionKept(es, p + 1, |es|);
  }

  predicate VersionWithMatch(e: Entry) {
    e.Version? && e.found.Some?
  }

  /** Without `VERSION_ID=` lines, and before the first `VERSION=` line holding a
      `digits.digits`, the version stays unset. */
  lemma {:induction false} RichVersionUnsetBefore(es: seq<Entry>, n: nat)
    requires n <= |es|
    requires forall q :: 0 <= q < n ==> !es[q].VersionId? && !VersionWithMatch(es[q])
    ensures RichAfter(es, n).version == None
    decreases n
  {
    if n > 0 {
      RichVersionUnsetBefore(es, n - 1);
    }
  }

  /** Without `VERSION_ID=` lines, the version is the match of the first `VERSION=` line
      that has one; a `VERSION=` line without one changes nothing. */
  lemma RichVersionFallback(es: seq<Entry>, q: nat)
    requires forall i :: 0 <= i < |es| ==> !es[i].VersionId?
    requires q < |es| && VersionWithMatch(es[q]) && es[q].found.value != ""
    requires forall i :: 0 <= i < q ==> !VersionWithMatch(es[i])
    ensures RichAfter(es, |es|).version == es[q].found
  {
    RichVersionUnsetBefore(es, q);
    RichVersionKept(es, q + 1, |es|);
  }

  /** A line is read as a `PRETTY_NAME=` entry exactly when it starts with that key. */
  lemma RichPrettyNameEntry(line: string)
    ensures ClassifyRich(line).PrettyName? <==> IsKeyLine(line, "PRETTY_NAME")
    ensures IsKeyLine(line, "PRETTY_NAME") ==>
      ClassifyRich(line) == PrettyName(RichValue(line, "PRETTY_NAME"))
  {
  }

  /** Without `VERSION_ID=` lines or matching `VERSION=` lines, no version is reported. */
  lemma RichVersionAbsent(es: seq<Entry>)
    requires forall i :: 0 <= i < |es| ==> !es[i].VersionId? && !VersionWithMatch(es[i])
    ensures RichAfter(es, |es|).version == None
  {
    RichVersionUnsetBefore(es, |es|);
  }

  // ---------------------------------------------------------------------------
  // Simple dialect: the last line of each kind wins
  // ---------------------------------------------------------------------------

  /** The value of the last `PRETTY_NAME=` entry (`pretty`) or `VERSION_ID=` entry among the
      first `n`, if there is one. */
  function LastValue(es: seq<Entry>, n: nat, pretty: bool): (r: Option<string>)
    requires n <= |es|
    ensures r.None? <==> forall q :: 0 <= q < n ==> !IsKind(es[q], pretty)
    ensures r.Some? ==> exists q :: 0 <= q < n && IsKind(es[q], pretty) && es[q].value == r.value
                          && (forall q' :: q < q' < n ==> !IsKind(es[q'], pretty))
  {
    if n == 0 then None
    else if IsKind(es[n - 1], pretty) then Some(es[n - 1].value)
    else LastValue(es, n - 1, pretty)
  }

  predicate IsKind(e: Entry, pretty: bool) {
    if pretty then e.PrettyName? else e.VersionId?
  }

  /** The simple dialect's name is the value of the last `PRETTY_NAME=` line (None if there
      is none) and its version that of the last `VERSION_ID=` line, empty values included. */
  lemma {:induction false} SimpleLastWins(es: seq<Entry>, n: nat)
    requires n <= |es|
    ensures SimpleAfter(es, n).name == LastValue(es, n, true)
    ensures SimpleAfter(es, n).version == LastValue(es, n, false)
    decreases n
  {
    if n > 0 {
      SimpleLastWins(es, n - 1);
    }
  }

  // ---------------------------------------------------------------------------
  // The same facts stated on the lines of the file
  // ---------------------------------------------------------------------------

  /** Rich dialect: the last `PRETTY_NAME=` line names the system when its cleaned value
      is non-empty, whatever `NAME=` and `ID=` lines surround it. */
  lemma RichPrettyNameLineWins(lines: seq<string>, p: nat)
    requires p < |lines| && IsKeyLine(lines[p], "PRETTY_NAME")
    requires RichValue(lines[p], "PRETTY_NAME") != ""
    requires forall q :: p < q < |lines| ==> !IsKeyLine(lines[q], "PRETTY_NAME")
    ensures ParseRich(lines).name == Some(RichValue(lines[p], "PRETTY_NAME"))
  {
    var es := ClassifyAll(Rich, lines);
    RichPrettyNameEntry(lines[p]);
    forall q | p < q < |es|
      ensures !es[q].PrettyName?
    {
      RichPrettyNameEntry(lines[q]);
    }
    RichPrettyNameWins(es, p);
  }

  /** Simple dialect: with no `PRETTY_NAME=` line the name stays None, and with no
      `VERSION_ID=` line so does the version. */
  lemma SimpleKeysMissing(lines: seq<string>)
    ensures (forall q :: 0 <= q < |lines| ==> !IsKeyLine(lines[q], "PRETTY_NAME")) ==> ParseSimple(lines).name == None
    ensures (forall q :: 0 <= q < |lines| ==> !IsKeyLine(lines[q], "VERSION_ID")) ==> ParseSimple(lines).version == None
  {
    var es := ClassifyAll(Simple, lines);
    SimpleLastWins(es, |es|);
    forall q | 0 <= q < |es|
      ensures es[q].PrettyName? ==> IsKeyLine(lines[q], "PRETTY_NAME")
      ensures es[q].VersionId? ==> IsKeyLine(lines[q], "VERSION_ID")
    {
      SimpleEntryKeys(lines[q]);
    }
  }

  /** The simple dialect reads a line as an entry only when it starts with that entry's key. */
  lemma SimpleEntryKeys(line: string)
    ensures ClassifySimple(line).PrettyName? ==> IsKeyLine(line, "PRETTY_NAME")
    ensures ClassifySimple(line).VersionId? ==> IsKeyLine(line, "VERSION_ID")
  {
  }

  // ---------------------------------------------------------------------------
  // detect_os and its cache
  // ---------------------------------------------------------------------------

  /** The lines of the file as `content.split('\n')` gives them: the rich dialect's view. */
  function Lines(text: string): seq<string> {
    Split(text, '\n')
  }

  /** The lines of the file as `for line in f` yields them: the same pieces, each but the
      last with its `\n` kept, and no last line when the file ends in `\n`. */
  function FileLines(text: string): (lines: seq<string>) {
    var parts := Lines(text);
    var n := |parts| - 1;
    seq(n, i requires 0 <= i < n => parts[i] + "\n") + (if parts[n] == "" then [] else [parts[n]])
  }

  /** The simple dialect parses the file alike whether it iterates the file, as the source
      does, or splits its text, as `detect_os` is modelled here. */
  lemma FileLinesParseAlike(text: string)
    ensures ParseSimple(FileLines(text)) == ParseSimple(Lines(text))
  {
    var parts := Lines(text);
    var n := |parts| - 1;
    var fl := FileLines(text);
    var es, fs := ClassifyAll(Simple, parts), ClassifyAll(Simple, fl);
    assert |fl| == if parts[n] == "" then n else n + 1;
    forall i | 0 <= i < n
      ensures fs[i] == es[i]
    {
      assert fl[i] == parts[i] + "\n";
      SimpleLineNewline(parts[i]);
    }
    if parts[n] == "" {
      assert es[n] == Ignored;
      SimpleAfterAgree(fs, es, n);
    } else {
      assert fl[n] == parts[n];
      SimpleAfterAgree(fs, es, n + 1);
    }
  }

  /** A line read with its `\n` says what the line says without it. */
  lemma SimpleLineNewline(line: string)
    ensures ClassifySimple(line + "\n") == ClassifySimple(line)
  {
    KeyLineNewline(line, "PRETTY_NAME");
    KeyLineNewline(line, "VERSION_ID");
  }

  lemma KeyLineNewline(line: string, key: string)
    requires '=' !in key
    ensures IsKeyLine(line + "\n", key) <==> IsKeyLine(line, key)
    ensures IsKeyLine(line, key) ==> SimpleValue(line + "\n", key) == SimpleValue(line, key)
  {
    var l := line + "\n";
    if |line| >= |key| + 1 {
      assert l[..|key| + 1] == line[..|key| + 1];
    } else if |line| == |key| {
      assert l[|key|] == '\n';
      assert (key + "=")[|key|] == '=';
    }
    if IsKeyLine(line, key) {
      var v := line[|key| + 1..];
      assert l[|key| + 1..] == v + ['\n'];
      StripIgnoresTrailing(v, Whitespace, '\n');
    }
  }

  /** The simple fold reads only the first `n` entries. */
  lemma {:induction false} SimpleAfterAgree(a: seq<Entry>, b: seq<Entry>, n: nat)
    requires n <= |a| && n <= |b|
    requires forall i :: 0 <= i < n ==> a[i] == b[i]
    ensures SimpleAfter(a, n) == SimpleAfter(b, n)
  {
    if n > 0 {
      SimpleAfterAgree(a, b, n - 1);
    }
  }

  function WithFields(osType: string, f: Fields): OsInfo {
    OsInfo(Some(osType), f.name, f.version)
  }

  /** `detect_os()` without its cache. */
  function DetectOs(d: Dialect, probe: OsProbe): (r: OsInfo)
    ensures IsLinux(probe.platform) <==> r.osType == Some("linux")
    ensures !IsLinux(probe.platform) && IsWindows(probe.platform) <==> r.osType == Some("windows")
    ensures !IsLinux(probe.platform) && !IsWindows(probe.platform) ==> r == OsInfo(None, None, None)
    ensures IsLinux(probe.platform) && probe.file.Unreadable? ==> r == OsInfo(Some("linux"), None, None)
  {
    if IsLinux(probe.platform) then
      match probe.file
      case Unreadable => WithFields("linux", NoFields)
      case Complete(text) =>
        WithFields("linux", if d == Rich then ParseRich(Lines(text)) else ParseSimple(Lines(text)))
      case BrokenAfter(text) =>
        // the rich dialect reads the whole file before parsing; the simple one keeps
        // what the lines read so far set
        WithFields("linux", if d == Rich then NoFields else ParseSimple(Lines(text)))
    else if IsWindows(probe.platform) then
      var w := probe.windows;
      var name := if d == Rich && Truthy(w.productName) then w.productName else w.system;
      OsInfo(Some("windows"), name, w.release)
    else
      OsInfo(None, None, None)
  }

  /** `detect_os()` through its cache: the rich dialect tests `cache is None`, the simple
      one the truthiness of the cached 3-tuple, which is never empty; both come down to
      whether a tuple is cached. */
  function DetectOsCached(d: Dialect, cache: Option<OsInfo>, probe: OsProbe): (r: (OsInfo, Option<OsInfo>))
    ensures r.1 == Some(r.0)
    ensures cache.Some? ==> r.0 == cache.value
    ensures cache.None? ==> r.0 == DetectOs(d, probe)
  {
    match cache
    case Some(info) => (info, cache)
    case None =>
      var info := DetectOs(d, probe);
      (info, Some(info))
  }

  /** The tuples a run of sends attaches, one per probe of the environment, and the
      number of times detection really ran. */
  function CachedRun(d: Dialect, cache: Option<OsInfo>, probes: seq<OsProbe>): (r: (seq<OsInfo>, nat))
    ensures |r.0| == |probes|
    decreases |probes|
  {
    if probes == [] then ([], 0)
    else
      var (info, cache') := DetectOsCached(d, cache, probes[0]);
      var (rest, calls) := CachedRun(d, cache', probes[1..]);
      ([info] + rest, calls + (if cache.None? then 1 else 0))
  }

  /** Detection runs at most once: every send reports the tuple detected for the first one,
      whatever the file and platform say later. */
  lemma {:induction false} DetectOnce(d: Dialect, probes: seq<OsProbe>)
    requires |probes| > 0
    ensures CachedRun(d, None, probes).1 == 1
    ensures forall i :: 0 <= i < |probes| ==> CachedRun(d, None, probes).0[i] == DetectOs(d, probes[0])
  {
    var info := DetectOs(d, probes[0]);
    CachedRunKeeps(d, info, probes[1..]);
  }

  lemma {:induction false} CachedRunKeeps(d: Dialect, info: OsInfo, probes: seq<OsProbe>)
    ensures CachedRun(d, Some(info), probes).1 == 0
    ensures forall i :: 0 <= i < |probes| ==> CachedRun(d, Some(info), probes).0[i] == info
    decreases |probes|
  {
    if probes != [] {
      CachedRunKeeps(d, info, probes[1..]);
    }
  }
}

=== FILE: payload.dfy ===
/**
 What one `send_metrics` call puts on the wire: the ingest URL, the two headers and
 the JSON payload. The payload is a map from key to JSON value; the order in which
 the source inserts keys only affects serialisation.
 */
module Payload {
  import opened Optional
  import opened PyStr
  import opened Revisions
  import opened OsRelease
  import opened Cloud

  // ---------------------------------------------------------------------------
  // URL and headers
  // ---------------------------------------------------------------------------

  const IngestPath: string := "/api/metrics/ingest"

  /** The base URL a request URL was built from, if it ends with the ingest path. */
  function BaseOf(url: string): Option<string> {
    if |IngestPath| <= |url| && url[|url| - |IngestPath|..] == IngestPath then
      Some(url[..|url| - |IngestPath|])
    else
      None
  }

  /** `f"{BASE_URL}/api/metrics/ingest"`. */
  function IngestUrl(baseUrl: string): (url: string)
    ensures BaseOf(url) == Some(baseUrl)
  {
    var url := baseUrl + IngestPath;
    assert url[|url| - |IngestPath|..] == IngestPath && url[..|url| - |IngestPath|] == baseUrl;
    url
  }

  /** Distinct base URLs never share an ingest URL. */
  lemma IngestUrlInjective(a: string, b: string)
    requires IngestUrl(a) == IngestUrl(b)
    ensures a == b
  {
    assert BaseOf(IngestUrl(a)) == Some(a) && BaseOf(IngestUrl(b)) == Some(b);
  }

  const BearerPrefix: string := "Bearer "

  /** The token an `Authorization: Bearer ...` header carries. */
  function BearerToken(headers: map<string, string>): Option<string> {
    if "Authorization" in headers && StartsWith(headers["Authorization"], BearerPrefix) then
      Some(headers["Authorization"][|BearerPrefix|..])
    else
      None
  }

  /** The two request headers. */
  function AuthHeaders(token: string): (h: map<string, string>)
    ensures h.Keys == {"Content-Type", "Authorization"}
    ensures h["Content-Type"] == "application/json"
    ensures BearerToken(h) == Some(token)
  {
    var auth := BearerPrefix + token;
    assert auth[..|BearerPrefix|] == BearerPrefix && auth[|BearerPrefix|..] == token;
    map["Content-Type" := "application/json", "Authorization" := auth]
  }

  // ---------------------------------------------------------------------------
  // JSON payload
  // ---------------------------------------------------------------------------

  /** The JSON values the payload holds; numbers stand for the rounded percentages. */
  datatype Json = JNull | JStr(str: string) | JNum(num: real)

  /** A Python value that may be None, as `json=` serialises it: None becomes `null`, and
      a receiver reading the field back gets the value that was sent. */
  function Nullable(v: Option<string>): (j: Json)
    ensures j == JNull <==> v.None?
    ensures ReadNullable(j) == v
  {
    match v
    case Some(s) => JStr(s)
    case None => JNull
  }

  /** How a receiver reads a field that may be `null`; a number is no text. */
  function ReadNullable(j: Json): Option<string> {
    match j
    case JStr(s) => Some(s)
    case _ => None
  }

  /** One round of readings: three percentages and "up" or "down". */
  datatype Sample = Sample(cpu: real, memory: real, disk: real, status: string)

  /** The payload's keys. */
  datatype Key =
    | Cpu | Memory | Disk | Status | AgentVersionKey
    | OsType | OsName | OsVersion
    | CloudProvider | InstanceType | CloudDetectionSource

  /** The JSON name of each key. */
  function KeyName(k: Key): string {
    match k
    case Cpu => "cpu"
    case Memory => "memory"
    case Disk => "disk"
    case Status => "status"
    case AgentVersionKey => "agent_version"
    case OsType => "os_type"
    case OsName => "os_name"
    case OsVersion => "os_version"
    case CloudProvider => "cloud_provider"
    case InstanceType => "instance_type"
    case CloudDetectionSource => "cloud_detection_source"
  }

  /** No two keys share a JSON name, so the payload serialises without collisions. */
  lemma KeyNamesDistinct(j: Key, k: Key)
    requires KeyName(j) == KeyName(k)
    ensures j == k
  {
  }

  type Body = map<Key, Json>

  const SampleKeys: set<Key> := {Cpu, Memory, Disk, Status}
  const OsKeys: set<Key> := {OsType, OsName, OsVersion}
  const CloudKeys: set<Key> := {CloudProvider, InstanceType, CloudDetectionSource}

  /** `payload[key] = value` under `if value:`. */
  function PutIfTruthy(p: Body, key: Key, v: Option<string>): (q: Body)
    ensures Truthy(v) ==> q == p[key := JStr(v.value)]
    ensures !Truthy(v) ==> q == p
  {
    if Truthy(v) then p[key := JStr(v.value)] else p
  }

  /** The dict literal `send_metrics` starts from: the readings, then `agent_version` for
      the copies that report one, then the cloud globals for the copy that detects them. */
  function DictLiteral(rev: Revision, s: Sample, cloud: CloudInfo): (p: Body)
    ensures p.Keys !! OsKeys
    ensures Cpu in p && p[Cpu] == JNum(s.cpu)
    ensures Memory in p && p[Memory] == JNum(s.memory)
    ensures Disk in p && p[Disk] == JNum(s.disk)
    ensures Status in p && p[Status] == JStr(s.status)
    ensures AgentVersionKey in p <==> AgentVersion(rev).Some?
    ensures AgentVersionKey in p ==> p[AgentVersionKey] == JStr(AgentVersion(rev).value)
    ensures forall k :: k in CloudKeys ==> (k in p <==> DetectsCloud(rev))
    ensures DetectsCloud(rev) ==> p[CloudProvider] == Nullable(cloud.provider)
    ensures DetectsCloud(rev) ==> p[InstanceType] == Nullable(cloud.instanceType)
    ensures DetectsCloud(rev) ==> p[CloudDetectionSource] == Nullable(cloud.source)
  {
    var base := map[Cpu := JNum(s.cpu), Memory := JNum(s.memory), Disk := JNum(s.disk), Status := JStr(s.status)];
    var versioned := if AgentVersion(rev).Some? then base[AgentVersionKey := JStr(AgentVersion(rev).value)] else base;
    if DetectsCloud(rev) then
      versioned[CloudProvider := Nullable(cloud.provider)][InstanceType := Nullable(cloud.instanceType)]
        [CloudDetectionSource := Nullable(cloud.source)]
    else versioned
  }

  /** The three `if os_*: payload["os_*"] = os_*` lines. */
  function AddOs(p: Body, os: OsInfo): (q: Body)
    requires p.Keys !! OsKeys
    ensures forall k :: k !in OsKeys ==> (k in q <==> k in p)
    ensures forall k :: k in p ==> k in q && q[k] == p[k]
    ensures OsType in q <==> Truthy(os.osType)
    ensures OsName in q <==> Truthy(os.osName)
    ensures OsVersion in q <==> Truthy(os.osVersion)
    ensures OsType in q ==> q[OsType] == JStr(os.osType.value)
    ensures OsName in q ==> q[OsName] == JStr(os.osName.value)
    ensures OsVersion in q ==> q[OsVersion] == JStr(os.osVersion.value)
  {
    PutIfTruthy(PutIfTruthy(PutIfTruthy(p, OsType, os.osType), OsName, os.osName), OsVersion, os.osVersion)
  }

  /** The payload `send_metrics` posts. `os` is what OS detection gave, all None for the
      copy that has none; `cloud` holds the globals `initialize_environment` set. */
  function BuildPayload(rev: Revision, s: Sample, os: OsInfo, cloud: CloudInfo): (p: Body)
    ensures Cpu in p && p[Cpu] == JNum(s.cpu)
    ensures Memory in p && p[Memory] == JNum(s.memory)
    ensures Disk in p && p[Disk] == JNum(s.disk)
    ensures Status in p && p[Status] == JStr(s.status)
    ensures AgentVersionKey in p <==> AgentVersion(rev).Some?
    ensures AgentVersionKey in p ==> p[AgentVersionKey] == JStr(AgentVersion(rev).value)
    ensures OsType in p <==> Truthy(os.osType)
    ensures OsName in p <==> Truthy(os.osName)
    ensures OsVersion in p <==> Truthy(os.osVersion)
    ensures forall k :: k in CloudKeys ==> (k in p <==> DetectsCloud(rev))
    ensures DetectsCloud(rev) ==> p[CloudProvider] == Nullable(cloud.provider)
    ensures DetectsCloud(rev) ==> p[InstanceType] == Nullable(cloud.instanceType)
    ensures DetectsCloud(rev) ==> p[CloudDetectionSource] == Nullable(cloud.source)
  {
    AddOs(DictLiteral(rev, s, cloud), os)
  }

  /** The string under `key`, if there is one. */
  function ReadText(p: Body, key: Key): Option<string> {
    if key in p && p[key].JStr? then Some(p[key].str) else None
  }

  /** The OS fields a receiver finds in a payload. */
  function ReadOs(p: Body): OsInfo {
    OsInfo(ReadText(p, OsType), ReadText(p, OsName), ReadText(p, OsVersion))
  }

  /** The readings a receiver finds in a payload. */
  function ReadSample(p: Body): Option<Sample> {
    if Cpu in p && p[Cpu].JNum? && Memory in p && p[Memory].JNum?
      && Disk in p && p[Disk].JNum? && Status in p && p[Status].JStr?
    then Some(Sample(p[Cpu].num, p[Memory].num, p[Disk].num, p[Status].str))
    else None
  }

  /** A value that passes the `if value:` filter, None otherwise. */
  function Reported(v: Option<string>): (r: Option<string>)
    ensures Truthy(v) ==> r == v
    ensures !Truthy(v) ==> r == None
  {
    if Truthy(v) then v else None
  }

  /** A receiver reads back exactly the readings that were sent. */
  lemma SampleRoundTrip(rev: Revision, s: Sample, os: OsInfo, cloud: CloudInfo)
    ensures ReadSample(BuildPayload(rev, s, os, cloud)) == Some(s)
  {
  }

  /** A receiver reads back the detected OS fields, except that None and "" both arrive
      as an absent key. */
  lemma OsRoundTrip(rev: Revision, s: Sample, os: OsInfo, cloud: CloudInfo)
    ensures ReadOs(BuildPayload(rev, s, os, cloud))
         == OsInfo(Reported(os.osType), Reported(os.osName), Reported(os.osVersion))
  {
  }

  /** `q` holds every key of `p` with the same value, except possibly at `changed`. */
  ghost predicate Extends(p: Body, q: Body, changed: set<Key>) {
    forall k :: k in p ==> k in q && (k !in changed ==> q[k] == p[k])
  }

  /** The rich-dialect copy sends what agent.py sends, which has no OS fields, and adds
      only the OS fields. */
  lemma OsFieldsAdded(s: Sample, os: OsInfo, cloud: CloudInfo)
    ensures var p0, p1 := BuildPayload(Unversioned, s, NoOs, cloud), BuildPayload(DottedV110, s, os, cloud);
      && Extends(p0, p1, {})
      && (forall k :: k in p1 && k !in p0 ==> k in OsKeys)
      && p0.Keys !! OsKeys
  {
  }

  /** Given the same OS fields, the v1.1.0 copy adds only `agent_version`. */
  lemma AgentVersionAdded(s: Sample, os: OsInfo, cloud: CloudInfo)
    ensures var p1, p2 := BuildPayload(DottedV110, s, os, cloud), BuildPayload(V110, s, os, cloud);
      && Extends(p1, p2, {})
      && p2.Keys == p1.Keys + {AgentVersionKey}
      && AgentVersionKey !in p1
  {
    var d1, d2 := DictLiteral(DottedV110, s, cloud), DictLiteral(V110, s, cloud);
    assert d2.Keys == d1.Keys + {AgentVersionKey};
    AddOsKeeps(d1, d2, os, {}, {AgentVersionKey});
  }

  /** Given the same OS fields, the v1.2.0 copy adds the three cloud fields and changes only
      the reported version. */
  lemma CloudFieldsAdded(s: Sample, os: OsInfo, cloud: CloudInfo)
    ensures var p2, p3 := BuildPayload(V110, s, os, cloud), BuildPayload(V120, s, os, cloud);
      && Extends(p2, p3, {AgentVersionKey})
      && p3.Keys == p2.Keys + CloudKeys
      && p2.Keys !! CloudKeys
      && p2[AgentVersionKey] != p3[AgentVersionKey]
  {
    var d2, d3 := DictLiteral(V110, s, cloud), DictLiteral(V120, s, cloud);
    assert d3.Keys == d2.Keys + CloudKeys;
    AddOsKeeps(d2, d3, os, {AgentVersionKey}, CloudKeys);
  }

  /** Adding the same OS fields to two dicts keeps how one extends the other. */
  lemma AddOsKeeps(p: Body, q: Body, os: OsInfo, changed: set<Key>, added: set<Key>)
    requires p.Keys !! OsKeys && q.Keys !! OsKeys && added !! OsKeys
    requires Extends(p, q, changed) && q.Keys == p.Keys + added
    ensures Extends(AddOs(p, os), AddOs(q, os), changed)
    ensures AddOs(q, os).Keys == AddOs(p, os).Keys + added
  {
    var p', q' := AddOs(p, os), AddOs(q, os);
    assert forall k :: k in q' <==> k in p' || k in added;
  }

  /** An HTTP POST as `requests.post(url, json=payload, headers=headers)` makes it. */
  datatype Request = Request(url: string, headers: map<string, string>, payload: Body)
}

=== FILE: pystr.dfy ===
/**
 The handful of Python `str` operations the agents rely on: truthiness,
 `startswith`, `strip`, `split`, `in`, and `str(int)`. Strings are `seq<char>`.
 */
module PyStr {
  import opened Optional

  /** Python truthiness of a value that is either `None` or a `str`. */
  predicate Truthy(v: Option<string>) {
    v.Some? && v.value != ""
  }

  /** The characters `str.isspace()` accepts, i.e. what a bare `strip()` removes. */
  const Whitespace: set<char> := {
    '\t', '\n', '\U{0B}', '\U{0C}', '\r', '\U{1C}', '\U{1D}', '\U{1E}', '\U{1F}', ' ',
    '\U{85}', '\U{A0}', '\U{1680}', '\U{2000}', '\U{2001}', '\U{2002}', '\U{2003}',
    '\U{2004}', '\U{2005}', '\U{2006}', '\U{2007}', '\U{2008}', '\U{2009}', '\U{200A}',
    '\U{2028}', '\U{2029}', '\U{202F}', '\U{205F}', '\U{3000}'
  }

  /** `s.startswith(p)` */
  predicate StartsWith(s: string, p: string) {
    |p| <= |s| && s[..|p|] == p
  }

  /** `s.lstrip(chars)`: the longest suffix of `s` that does not begin with a character of `cs`. */
  function LStrip(s: string, cs: set<char>): (r: string)
    ensures |r| <= |s| && r == s[|s| - |r|..]
    ensures forall k :: 0 <= k < |s| - |r| ==> s[k] in cs
    ensures r != [] ==> r[0] !in cs
    decreases |s|
  {
    if |s| > 0 && s[0] in cs then LStrip(s[1..], cs) else s
  }

  /** `s.rstrip(chars)`: the longest prefix of `s` that does not end with a character of `cs`. */
  function RStrip(s: string, cs: set<char>): (r: string)
    ensures |r| <= |s| && r == s[..|r|]
    ensures forall k :: |r| <= k < |s| ==> s[k] in cs
    ensures r != [] ==> r[|r| - 1] !in cs
    decreases |s|
  {
    if |s| > 0 && s[|s| - 1] in cs then RStrip(s[..|s| - 1], cs) else s
  }

  /** `s.strip(chars)` */
  function Strip(s: string, cs: set<char>): string {
    RStrip(LStrip(s, cs), cs)
  }

  /** `r` is what remains of `s` once every leading and trailing character of `cs` is removed. */
  ghost predicate StrippedFrom(r: string, s: string, cs: set<char>) {
    exists i :: 0 <= i <= |s| - |r| && IsStripWindow(r, s, cs, i)
  }

  ghost predicate IsStripWindow(r: string, s: string, cs: set<char>, i: int)
    requires 0 <= i <= |s| - |r|
  {
    && r == s[i..i + |r|]
    && (forall k :: 0 <= k < i ==> s[k] in cs)
    && (forall k :: i + |r| <= k < |s| ==> s[k] in cs)
    && (r != [] ==> r[0] !in cs && r[|r| - 1] !in cs)
  }

  /** `Strip` removes exactly the maximal runs of `cs` at both ends, and nothing else does. */
  lemma StripCharacterization(s: string, cs: set<char>, r: string)
    ensures r == Strip(s, cs) <==> StrippedFrom(r, s, cs)
  {
    var t := Strip(s, cs);
    var i := |s| - |LStrip(s, cs)|;
    StripWindow(s, cs);
    if StrippedFrom(r, s, cs) {
      var i' :| 0 <= i' <= |s| - |r| && IsStripWindow(r, s, cs, i');
      StripWindowUnique(s, cs, t, i, r, i');
    }
  }

  /** A character that `strip` removes anyway changes nothing when appended: a line read
      with its `\n` strips to the same text as the line without it. */
  lemma StripIgnoresTrailing(s: string, cs: set<char>, c: char)
    requires c in cs
    ensures Strip(s + [c], cs) == Strip(s, cs)
  {
    var r := Strip(s, cs);
    StripWindow(s, cs);
    WindowExtends(s, cs, c, r, |s| - |LStrip(s, cs)|);
    StripCharacterization(s + [c], cs, r);
  }

  lemma WindowExtends(s: string, cs: set<char>, c: char, r: string, i: int)
    requires c in cs && 0 <= i <= |s| - |r| && IsStripWindow(r, s, cs, i)
    ensures 0 <= i <= |s + [c]| - |r| && IsStripWindow(r, s + [c], cs, i)
  {
    assert (s + [c])[i..i + |r|] == s[i..i + |r|];
  }

  /** `Strip` keeps the window that starts where `LStrip` stopped. */
  lemma StripWindow(s: string, cs: set<char>)
    ensures 0 <= |s| - |LStrip(s, cs)| <= |s| - |Strip(s, cs)|
    ensures IsStripWindow(Strip(s, cs), s, cs, |s| - |LStrip(s, cs)|)
  {
    WindowOfStrips(s, cs, LStrip(s, cs), Strip(s, cs));
  }

  /** A left-stripped suffix `l` of `s`, right-stripped to `r`, is a strip window of `s`. */
  lemma WindowOfStrips(s: string, cs: set<char>, l: string, r: string)
    requires |l| <= |s| && l == s[|s| - |l|..]
    requires forall k :: 0 <= k < |s| - |l| ==> s[k] in cs
    requires l != [] ==> l[0] !in cs
    requires |r| <= |l| && r == l[..|r|]
    requires forall k :: |r| <= k < |l| ==> l[k] in cs
    requires r != [] ==> r[|r| - 1] !in cs
    ensures 0 <= |s| - |l| <= |s| - |r|
    ensures IsStripWindow(r, s, cs, |s| - |l|)
  {
    var i := |s| - |l|;
    assert r == s[i..i + |r|];
    forall k | i + |r| <= k < |s|
      ensures s[k] in cs
    {
      assert s[k] == l[k - i];
    }
  }

  lemma StripWindowUnique(s: string, cs: set<char>, t: string, i: int, r: string, i': int)
    requires 0 <= i <= |s| - |t| && IsStripWindow(t, s, cs, i)
    requires 0 <= i' <= |s| - |r| && IsStripWindow(r, s, cs, i')
    ensures r == t
  {
    if r != [] && t != [] {
      assert s[i'] == r[0] && s[i] == t[0];
      assert i == i';
      assert s[i' + |r| - 1] == r[|r| - 1] && s[i + |t| - 1] == t[|t| - 1];
    }
  }

  /** Stripping twice removes nothing more. */
  lemma StripIdempotent(s: string, cs: set<char>)
    ensures Strip(Strip(s, cs), cs) == Strip(s, cs)
  {
    var t := Strip(s, cs);
    StripCharacterization(t, cs, t);
    assert IsStripWindow(t, t, cs, 0);
  }

  /** `c` occurs nowhere in `s`. */
  predicate Free(s: string, c: char) {
    forall k :: 0 <= k < |s| ==> s[k] != c
  }

  /** Index of the first occurrence of `c` in `s` (`s.find(c)`), `|s|` when there is none. */
  function IndexOf(s: string, c: char): (i: nat)
    ensures i <= |s|
    ensures i < |s| ==> s[i] == c
    decreases |s|
  {
    if s == [] || s[0] == c then 0 else 1 + IndexOf(s[1..], c)
  }

  /** No `c` comes before the index `IndexOf` reports. */
  lemma {:induction false} IndexOfFirst(s: string, c: char)
    ensures Free(s[..IndexOf(s, c)], c)
    decreases |s|
  {
    if s != [] && s[0] != c {
      IndexOfFirst(s[1..], c);
      assert s[..IndexOf(s, c)] == [s[0]] + s[1..][..IndexOf(s[1..], c)];
    }
  }

  /** `s.split(c, 1)[1]`: the text after the first `c`, which must be there. */
  function AfterFirst(s: string, c: char): (r: string)
    requires c in s
    ensures |r| < |s|
    ensures Free(s[..|s| - |r| - 1], c) && s[|s| - |r| - 1] == c
    ensures s == s[..|s| - |r| - 1] + [c] + r
  {
    var i := IndexOf(s, c);
    IndexOfFirst(s, c);
    assert i < |s| by {
      var k :| 0 <= k < |s| && s[k] == c;
      if k < i {
        assert s[..i][k] == c;
      }
    }
    assert s == s[..i] + [c] + s[i + 1..];
    s[i + 1..]
  }

  /** `s.split(c)` with a single-character separator. */
  function Split(s: string, c: char): (parts: seq<string>)
    ensures |parts| >= 1
    decreases |s|
  {
    var i := IndexOf(s, c);
    if i == |s| then [s] else [s[..i]] + Split(s[i + 1..], c)
  }

  /** No piece of a split contains the separator. */
  lemma {:induction false} SplitPiecesFree(s: string, c: char)
    ensures forall i :: 0 <= i < |Split(s, c)| ==> Free(Split(s, c)[i], c)
    decreases |s|
  {
    var i := IndexOf(s, c);
    IndexOfFirst(s, c);
    if i < |s| {
      SplitPiecesFree(s[i + 1..], c);
      assert Split(s, c) == [s[..i]] + Split(s[i + 1..], c);
    }
  }

  /** `c.join(parts)` */
  function Join(parts: seq<string>, c: char): string
    requires |parts| >= 1
  {
    if |parts| == 1 then parts[0] else parts[0] + [c] + Join(parts[1..], c)
  }

  /** Joining the pieces of a split gives back the original string. */
  lemma {:induction false} JoinSplit(s: string, c: char)
    ensures Join(Split(s, c), c) == s
    decreases |s|
  {
    var i := IndexOf(s, c);
    if i < |s| {
      var rest := Split(s[i + 1..], c);
      assert Split(s, c) == [s[..i]] + rest;
      assert ([s[..i]] + rest)[1..] == rest;
      JoinSplit(s[i + 1..], c);
      assert s == s[..i] + [c] + s[i + 1..];
    }
  }

  /** The first separator of `p + [c] + t`, for a separator-free `p`, is the one after `p`. */
  lemma IndexAfterFreePrefix(p: string, c: char, t: string)
    requires Free(p, c)
    ensures IndexOf(p + [c] + t, c) == |p|
  {
    var s := p + [c] + t;
    IndexOfFirst(s, c);
    assert s[|p|] == c;
    assert s[..|p|] == p;
  }

  /** Splitting a join of separator-free pieces gives back the pieces. */
  lemma {:induction false} SplitJoin(parts: seq<string>, c: char)
    requires |parts| >= 1
    requires forall i :: 0 <= i < |parts| ==> Free(parts[i], c)
    ensures Split(Join(parts, c), c) == parts
    decreases |parts|
  {
    if |parts| > 1 {
      var p0, tail := parts[0], Join(parts[1..], c);
      var s := p0 + [c] + tail;
      IndexAfterFreePrefix(p0, c, tail);
      assert s[..|p0|] == p0;
      assert s[|p0| + 1..] == tail;
      SplitJoin(parts[1..], c);
      assert parts == [p0] + parts[1..];
    } else {
      assert IndexOf(parts[0], c) == |parts[0]|;
    }
  }

  /** `s.split(c)[-1]`: what follows the last `c`, all of `s` when there is none. */
  function LastSegment(s: string, c: char): string
    decreases |s|
  {
    var i := IndexOf(s, c);
    if i == |s| then s else LastSegment(s[i + 1..], c)
  }

  /** `LastSegment` is the `c`-free suffix that is all of `s` or follows a `c`. */
  lemma {:induction false} LastSegmentSpec(s: string, c: char)
    ensures IsLastSegment(LastSegment(s, c), s, c)
    decreases |s|
  {
    var i := IndexOf(s, c);
    if i == |s| {
      IndexOfFirst(s, c);
      assert s[..i] == s;
      WholeIsLastSegment(s, c);
    } else {
      var r := LastSegment(s[i + 1..], c);
      LastSegmentSpec(s[i + 1..], c);
      LastSegmentAfter(s, c, i, r);
      LastSegmentStep(s, c, i);
    }
  }

  lemma WholeIsLastSegment(s: string, c: char)
    requires Free(s, c)
    ensures IsLastSegment(s, s, c)
  {
  }

  /** `r` is a `c`-free suffix of `s` that is either all of `s` or preceded by `c`. */
  ghost predicate IsLastSegment(r: string, s: string, c: char) {
    && Free(r, c)
    && |r| <= |s| && r == s[|s| - |r|..]
    && (|r| < |s| ==> s[|s| - |r| - 1] == c)
  }

  /** At most one string is the last segment. */
  lemma LastSegmentUnique(r: string, r': string, s: string, c: char)
    requires IsLastSegment(r, s, c) && IsLastSegment(r', s, c)
    ensures r == r'
  {
  }

  /** The last segment of what follows a separator is the last segment of the whole. */
  lemma LastSegmentAfter(s: string, c: char, i: nat, r: string)
    requires i < |s| && s[i] == c
    requires IsLastSegment(r, s[i + 1..], c)
    ensures IsLastSegment(r, s, c)
  {
    var t := s[i + 1..];
    assert t[|t| - |r|..] == s[|s| - |r|..];
    if |r| < |t| {
      assert t[|t| - |r| - 1] == s[|s| - |r| - 1];
    }
  }

  /** `LastSegment` is indeed the last piece `Split` produces. */
  lemma {:induction false} LastSegmentIsLastPiece(s: string, c: char)
    ensures var parts := Split(s, c); parts[|parts| - 1] == LastSegment(s, c)
    decreases |s|
  {
    var i := IndexOf(s, c);
    if i < |s| {
      var t := s[i + 1..];
      LastSegmentIsLastPiece(t, c);
      SplitLastPiece(s, c, i);
      LastSegmentStep(s, c, i);
    }
  }

  /** One step of `LastSegment` when the separator occurs, at `i`. */
  lemma LastSegmentStep(s: string, c: char, i: nat)
    requires i == IndexOf(s, c) < |s|
    ensures LastSegment(s, c) == LastSegment(s[i + 1..], c)
  {
  }

  /** When the separator occurs first at `i`, the last piece comes from what follows it. */
  lemma SplitLastPiece(s: string, c: char, i: nat)
    requires i == IndexOf(s, c) < |s|
    ensures var parts, rest := Split(s, c), Split(s[i + 1..], c);
      parts[|parts| - 1] == rest[|rest| - 1]
  {
    LastOfCons(Split(s, c), s[..i], Split(s[i + 1..], c));
  }

  lemma LastOfCons<T>(parts: seq<T>, x: T, rest: seq<T>)
    requires parts == [x] + rest && |rest| >= 1
    ensures parts[|parts| - 1] == rest[|rest| - 1]
  {
  }

  /** `sub in s` */
  predicate Contains(s: string, sub: string)
    decreases |s|
  {
    StartsWith(s, sub) || (|s| > 0 && Contains(s[1..], sub))
  }

  ghost predicate OccursAt(s: string, sub: string, i: int) {
    0 <= i <= |s| - |sub| && s[i..i + |sub|] == sub
  }

  /** `sub in s` holds exactly when `sub` occurs at some position of `s`. */
  lemma {:induction false} ContainsOccurrence(s: string, sub: string)
    ensures Contains(s, sub) <==> exists i :: OccursAt(s, sub, i)
    decreases |s|
  {
    if StartsWith(s, sub) {
      assert OccursAt(s, sub, 0);
    } else if |s| > 0 {
      ContainsOccurrence(s[1..], sub);
      if Contains(s[1..], sub) {
        var i :| OccursAt(s[1..], sub, i);
        assert s[1..][i..i + |sub|] == s[i + 1..i + 1 + |sub|];
        assert OccursAt(s, sub, i + 1);
      }
      if exists i :: OccursAt(s, sub, i) {
        var i :| OccursAt(s, sub, i);
        assert i != 0;
        assert s[1..][i - 1..i - 1 + |sub|] == s[i..i + |sub|];
        assert OccursAt(s[1..], sub, i - 1);
      }
    }
  }

  predicate IsDigit(c: char) {
    '0' <= c <= '9'
  }

  function DigitChar(d: nat): (c: char)
    requires d < 10
    ensures IsDigit(c)
  {
    "0123456789"[d]
  }

  function DigitValue(c: char): nat
    requires IsDigit(c)
  {
    (c as int - '0' as int) as nat
  }

  /** `str(n)` for a non-negative `int`. */
  function NatToString(n: nat): (r: string)
    ensures |r| >= 1
    ensures forall i :: 0 <= i < |r| ==> IsDigit(r[i])
    ensures r[0] == '0' ==> r == "0"
  {
    if n < 10 then [DigitChar(n)] else NatToString(n / 10) + [DigitChar(n % 10)]
  }

  /** `int(s)` for a string of decimal digits. */
  function ParseDigits(s: string): nat
    requires forall i :: 0 <= i < |s| ==> IsDigit(s[i])
  {
    if s == [] then 0 else ParseDigits(s[..|s| - 1]) * 10 + DigitValue(s[|s| - 1])
  }

  /** Reading back the decimal text of `n` gives `n`. */
  lemma {:induction false} NatToStringRoundTrip(n: nat)
    ensures ParseDigits(NatToString(n)) == n
  {
    var r := NatToString(n);
    if n >= 10 {
      NatToStringRoundTrip(n / 10);
      assert r[..|r| - 1] == NatToString(n / 10);
    }
  }

  /** Different numbers print differently. */
  lemma NatToStringInjective(m: nat, n: nat)
    requires NatToString(m) == NatToString(n)
    ensures m == n
  {
    NatToStringRoundTrip(m);
    NatToStringRoundTrip(n);
  }
}

=== FILE: revisions.dfy ===
/**
 The four copies of the agent that the repository ships, and the settings in which
 they differ: the default server, the version they report, how `send_metrics`
 sleeps between attempts, which `/etc/os-release` reader they use, where the token
 may come from, and whether cloud detection runs.
 */
module Revisions {
  import opened Optional
  import Delivery
  import OsRelease

  /** `agent.py`, `agents/v.1.1.0/agent.py`, `agents/v1.1.0/agent.py`, `agents/v1.2.0/agent.py`. */
  datatype Revision = Unversioned | DottedV110 | V110 | V120

  /** `BASE_URL`'s fallback when the environment has none. */
  function DefaultBaseUrl(rev: Revision): string {
    if rev == DottedV110 then "https://montime-mauve.vercel.app" else "https://www.montime.io"
  }

  /** `AGENT_VERSION`, absent from the two older copies. The v1.2.0 file reports "v1.3.0". */
  function AgentVersion(rev: Revision): Option<string> {
    match rev
    case V110 => Some("v1.1.0")
    case V120 => Some("v1.3.0")
    case _ => None
  }

  /** The older copies sleep only before a retry; the newer ones after every failed attempt. */
  function Policy(rev: Revision): Delivery.SleepPolicy {
    if rev == Unversioned || rev == DottedV110 then Delivery.SleepBetweenAttempts
    else Delivery.SleepAfterEveryFailure
  }

  /** How `/etc/os-release` is read; the unversioned copy does no OS detection at all. */
  function OsDialect(rev: Revision): Option<OsRelease.Dialect> {
    match rev
    case Unversioned => None
    case DottedV110 => Some(OsRelease.Rich)
    case _ => Some(OsRelease.Simple)
  }

  /** Whether `config.json`'s `api_key` stands in for a missing `SERVER_TOKEN`. */
  predicate ReadsConfigToken(rev: Revision) {
    rev == V110 || rev == V120
  }

  /** Whether `initialize_environment` runs and the cloud fields are sent. */
  predicate DetectsCloud(rev: Revision) {
    rev == V120
  }
}

=== FILE: versionpattern.dfy ===
/**
 `re.search(r'\d+\.\d+', s)`: the leftmost occurrence of digits, a dot and digits,
 with both digit runs taken greedily, as Python's backtracking matcher returns it. On a
 `str` pattern `\d` is any Unicode decimal digit (general category Nd), not only `0`-`9`.
 */
module VersionPattern {
  import opened Optional
  import opened PyStr

  /** The decimal digits (general category Nd) of Unicode 15.0 form this many runs of
      consecutive code points, 680 digits in all. */
  const RunCount := 64

  /** The `k`-th run of decimal digits, lowest and highest code point, in ascending order. */
  function DigitRun(k: nat): (run: (char, char))
    requires k < RunCount
    ensures '0' <= run.0 <= run.1
  {
    match k
      case 0 => ('0', '9')
      case 1 => ('\U{0660}', '\U{0669}')
      case 2 => ('\U{06F0}', '\U{06F9}')
      case 3 => ('\U{07C0}', '\U{07C9}')
      case 4 => ('\U{0966}', '\U{096F}')
      case 5 => ('\U{09E6}', '\U{09EF}')
      case 6 => ('\U{0A66}', '\U{0A6F}')
      case 7 => ('\U{0AE6}', '\U{0AEF}')
      case 8 => ('\U{0B66}', '\U{0B6F}')
      case 9 => ('\U{0BE6}', '\U{0BEF}')
      case 10 => ('\U{0C66}', '\U{0C6F}')
      case 11 => ('\U{0CE6}', '\U{0CEF}')
      case 12 => ('\U{0D66}', '\U{0D6F}')
      case 13 => ('\U{0DE6}', '\U{0DEF}')
      case 14 => ('\U{0E50}', '\U{0E59}')
      case 15 => ('\U{0ED0}', '\U{0ED9}')
      case 16 => ('\U{0F20}', '\U{0F29}')
      case 17 => ('\U{1040}', '\U{1049}')
      case 18 => ('\U{1090}', '\U{1099}')
      case 19 => ('\U{17E0}', '\U{17E9}')
      case 20 => ('\U{1810}', '\U{1819}')
      case 21 => ('\U{1946}', '\U{194F}')
      case 22 => ('\U{19D0}', '\U{19D9}')
      case 23 => ('\U{1A80}', '\U{1A89}')
      case 24 => ('\U{1A90}', '\U{1A99}')
      case 25 => ('\U{1B50}', '\U{1B59}')
      case 26 => ('\U{1BB0}', '\U{1BB9}')
      case 27 => ('\U{1C40}', '\U{1C49}')
      case 28 => ('\U{1C50}', '\U{1C59}')
      case 29 => ('\U{A620}', '\U{A629}')
      case 30 => ('\U{A8D0}', '\U{A8D9}')
      case 31 => ('\U{A900}', '\U{A909}')
      case 32 => ('\U{A9D0}', '\U{A9D9}')
      case 33 => ('\U{A9F0}', '\U{A9F9}')
      case 34 => ('\U{AA50}', '\U{AA59}')
      case 35 => ('\U{ABF0}', '\U{ABF9}')
      case 36 => ('\U{FF10}', '\U{FF19}')
      case 37 => ('\U{104A0}', '\U{104A9}')
      case 38 => ('\U{10D30}', '\U{10D39}')
      case 39 => ('\U{11066}', '\U{1106F}')
      case 40 => ('\U{110F0}', '\U{110F9}')
      case 41 => ('\U{11136}', '\U{1113F}')
      case 42 => ('\U{111D0}', '\U{111D9}')
      case 43 => ('\U{112F0}', '\U{112F9}')
      case 44 => ('\U{11450}', '\U{11459}')
      case 45 => ('\U{114D0}', '\U{114D9}')
      case 46 => ('\U{11650}', '\U{11659}')
      case 47 => ('\U{116C0}', '\U{116C9}')
      case 48 => ('\U{11730}', '\U{11739}')
      case 49 => ('\U{118E0}', '\U{118E9}')
      case 50 => ('\U{11950}', '\U{11959}')
      case 51 => ('\U{11C50}', '\U{11C59}')
      case 52 => ('\U{11D50}', '\U{11D59}')
      case 53 => ('\U{11DA0}', '\U{11DA9}')
      case 54 => ('\U{11F50}', '\U{11F59}')
      case 55 => ('\U{16A60}', '\U{16A69}')
      case 56 => ('\U{16AC0}', '\U{16AC9}')
      case 57 => ('\U{16B50}', '\U{16B59}')
      case 58 => ('\U{1D7CE}', '\U{1D7FF}')
      case 59 => ('\U{1E140}', '\U{1E149}')
      case 60 => ('\U{1E2F0}', '\U{1E2F9}')
      case 61 => ('\U{1E4F0}', '\U{1E4F9}')
      case 62 => ('\U{1E950}', '\U{1E959}')
      case _ => ('\U{1FBF0}', '\U{1FBF9}')
  }

  /** `c` lies in one of the runs numbered `k` and above. */
  predicate InRunsFrom(c: char, k: nat)
    decreases RunCount - k
  {
    k < RunCount && (DigitRun(k).0 <= c <= DigitRun(k).1 || InRunsFrom(c, k + 1))
  }

  /** `\d` on a `str` pattern: any Unicode decimal digit, not only `0`-`9`. */
  predicate IsDecimalDigit(c: char) {
    InRunsFrom(c, 0)
  }

  /** Every decimal digit is at least `0`, so the dot the pattern looks for is none. */
  lemma {:induction false} DigitsFromZero(c: char, k: nat)
    requires InRunsFrom(c, k)
    ensures '0' <= c
    decreases RunCount - k
  {
    if !(DigitRun(k).0 <= c <= DigitRun(k).1) {
      DigitsFromZero(c, k + 1);
    }
  }

  /** The dot the pattern looks for is not itself a digit. */
  lemma DotIsNoDigit()
    ensures !IsDecimalDigit('.')
  {
    if IsDecimalDigit('.') {
      DigitsFromZero('.', 0);
    }
  }

  /** The pattern matches `s[i..k]` with its dot at `j`. */
  ghost predicate PatternAt(s: string, i: int, j: int, k: int) {
    && 0 <= i < j && j + 1 < k <= |s|
    && s[j] == '.'
    && (forall m :: i <= m < j ==> IsDecimalDigit(s[m]))
    && (forall m :: j < m < k ==> IsDecimalDigit(s[m]))
  }

  /** Some match of the pattern begins at `i`. */
  ghost predicate MatchesAt(s: string, i: int) {
    exists j, k :: PatternAt(s, i, j, k)
  }

  /** The pattern matches exactly `s[i..k]`. */
  ghost predicate SpanMatches(s: string, i: int, k: int) {
    exists j :: PatternAt(s, i, j, k)
  }

  /** The end of the run of digits that starts at `i`. */
  function DigitRunEnd(s: string, i: nat): (j: nat)
    requires i <= |s|
    ensures i <= j <= |s|
    ensures forall m :: i <= m < j ==> IsDecimalDigit(s[m])
    ensures j < |s| ==> !IsDecimalDigit(s[j])
    decreases |s| - i
  {
    if i < |s| && IsDecimalDigit(s[i]) then DigitRunEnd(s, i + 1) else i
  }

  /** A matched span `s[start..end]`. */
  datatype Span = Span(start: nat, end: nat)

  /** The greedy match at position `i`, if the pattern matches there at all. */
  function MatchAt(s: string, i: nat): (r: Option<nat>)
    requires i <= |s|
    ensures r.Some? ==> i < r.value <= |s|
  {
    var j := DigitRunEnd(s, i);
    if i < j && j + 1 < |s| && s[j] == '.' && IsDecimalDigit(s[j + 1]) then Some(DigitRunEnd(s, j + 1)) else None
  }

  /** `MatchAt` finds a match exactly where one begins, and takes the second run whole. */
  lemma MatchAtSpec(s: string, i: nat)
    requires i <= |s|
    ensures MatchAt(s, i).Some? <==> MatchesAt(s, i)
    ensures MatchAt(s, i).Some? ==> exists j :: PatternAt(s, i, j, MatchAt(s, i).value)
    ensures MatchAt(s, i).Some? ==> MatchAt(s, i).value == |s| || !IsDecimalDigit(s[MatchAt(s, i).value])
  {
    var j := DigitRunEnd(s, i);
    if i < j && j + 1 < |s| && s[j] == '.' && IsDecimalDigit(s[j + 1]) {
      assert PatternAt(s, i, j, DigitRunEnd(s, j + 1));
    } else {
      NoMatchAt(s, i, j);
    }
  }

  /** When the digit run from `i` is not followed by a dot and a digit, nothing matches at `i`. */
  lemma NoMatchAt(s: string, i: nat, j: nat)
    requires i <= |s| && j == DigitRunEnd(s, i)
    requires !(i < j && j + 1 < |s| && s[j] == '.' && IsDecimalDigit(s[j + 1]))
    ensures !MatchesAt(s, i)
  {
    DotIsNoDigit();
  }

  /** The leftmost match starting at or after `from`. */
  function SearchFrom(s: string, from: nat): (r: Option<Span>)
    requires from <= |s|
    ensures r.Some? ==> from <= r.value.start < r.value.end <= |s|
    decreases |s| - from
  {
    match MatchAt(s, from)
    case Some(k) => Some(Span(from, k))
    case None =>
      if from == |s| then None else SearchFrom(s, from + 1)
  }

  /** `SearchFrom` reports the first position from `from` on where a match begins, with
      the greedy end of that match. */
  lemma {:induction false} SearchFromSpec(s: string, from: nat)
    requires from <= |s|
    ensures var r := SearchFrom(s, from);
      && (r.None? ==> forall i :: from <= i <= |s| ==> !MatchesAt(s, i))
      && (r.Some? ==> from <= r.value.start && MatchesAt(s, r.value.start))
      && (r.Some? ==> forall i :: from <= i < r.value.start ==> !MatchesAt(s, i))
      && (r.Some? ==> exists j :: PatternAt(s, r.value.start, j, r.value.end))
      && (r.Some? ==> r.value.end == |s| || !IsDecimalDigit(s[r.value.end]))
    decreases |s| - from
  {
    MatchAtSpec(s, from);
    if MatchAt(s, from).None? && from < |s| {
      SearchFromSpec(s, from + 1);
    }
  }

  /** `v` is the text `re.search` reports: the match at `i`, with no match starting earlier
      and the second digit run not extendable. */
  ghost predicate LeftmostMatchAt(s: string, v: string, i: int) {
    && 0 <= i <= |s| - |v|
    && v == s[i..i + |v|]
    && SpanMatches(s, i, i + |v|)
    && (forall i' :: 0 <= i' < i ==> !MatchesAt(s, i'))
    && (i + |v| == |s| || !IsDecimalDigit(s[i + |v|]))
  }

  /** `re.search(r'\d+\.\d+', s).group(0)`, or None when there is no match. */
  function SearchVersion(s: string): Option<string> {
    match SearchFrom(s, 0)
    case Some(m) => Some(s[m.start..m.end])
    case None => None
  }

  /** `SearchVersion` finds nothing exactly when the pattern matches nowhere, and otherwise
      the leftmost match, at least three characters long. */
  lemma SearchVersionSpec(s: string)
    ensures SearchVersion(s).None? <==> forall i :: 0 <= i <= |s| ==> !MatchesAt(s, i)
    ensures SearchVersion(s).Some? ==> exists i :: LeftmostMatchAt(s, SearchVersion(s).value, i)
    ensures SearchVersion(s).Some? ==> |SearchVersion(s).value| >= 3
  {
    SearchFromSpec(s, 0);
    match SearchFrom(s, 0)
    case Some(m) =>
      assert LeftmostMatchAt(s, s[m.start..m.end], m.start);
    case None =>
  }

  /** `v` is digits, a dot at `j`, and digits, with at least one digit on each side. */
  ghost predicate DigitsDotDigits(v: string, j: int) {
    && 0 < j < |v| - 1 && v[j] == '.'
    && (forall m :: 0 <= m < j ==> IsDecimalDigit(v[m]))
    && (forall m :: j < m < |v| ==> IsDecimalDigit(v[m]))
  }

  /** A found version is digits, one dot, and digits. */
  lemma SearchVersionShape(s: string)
    requires SearchVersion(s).Some?
    ensures exists j :: DigitsDotDigits(SearchVersion(s).value, j)
  {
    SearchVersionSpec(s);
    var v := SearchVersion(s).value;
    var i :| LeftmostMatchAt(s, v, i);
    MatchShape(s, v, i);
  }

  lemma MatchShape(s: string, v: string, i: int)
    requires 0 <= i <= |s| - |v| && v == s[i..i + |v|] && SpanMatches(s, i, i + |v|)
    ensures exists j :: DigitsDotDigits(v, j)
  {
    var j :| PatternAt(s, i, j, i + |v|);
    assert v[j - i] == '.';
    assert forall m :: 0 <= m < |v| ==> v[m] == s[i + m];
    assert DigitsDotDigits(v, j - i);
  }
}

=== FILE: wrappers.dfy ===
/** A Python value that may be `None`: the agents' environment variables, file
    fields and detection results are all of this kind. */
module Optional {

  datatype Option<T> = None | Some(value: T)
}
